=== FILE: README.md ===
# FinanceBinder browser logic in Dafny

FinanceBinder is a small personal-finance web application. Users keep
"binders" of transactions, and each binder has named, coloured categories.
This project models the application's browser-side logic as pure functions
over immutable data, and proves what each piece promises. There are three
pieces:

- **Chart** (`static/js/chart.js`). `renderChart` folds a binder's transactions
  into one sum per category. Every declared category is seeded with a zero,
  and any other category is added the first time a transaction names it. The
  result is the index-aligned labels, sums, fill colours and border colours of
  a bar chart, or the "no data" placeholder when there are no transactions.
  `adjustColor` is meant to darken a `#rrggbb` colour channel by channel,
  clamped to a byte, for the bar borders. As written it also swaps the
  channels (see "## Findings"); the model keeps that function as
  `ChartColor.AdjustColor` and draws the borders with the channel-preserving
  `ChartColor.AdjustColorRgb`.
- **Binder view** (`static/js/app.js`):
  - the collapsible binder header;
  - the category filter, which shows or hides transaction rows and shows
    either the visible rows' total or the stored all-categories total, with a
    red/green class;
  - the "back to all categories" button;
  - the dialogs, which build their form's `action` URL from the data
    attributes of the button that opened them and fill the category
    `<select>`.
- **Service worker** (`static/service-worker.js`). The install, activate and
  fetch handlers are transitions over the browser's cache storage. Cache
  storage is the ordered list of cache names plus one URL→response map per
  cache.

Modules:

| module | file | contents |
|---|---|---|
| `Wrappers` | wrappers.dfy | `Option` |
| `Seqs` | seqs.dfy | sequences without repeats, shared by the chart, the dialogs and the service worker |
| `Bits` | bits.dfy | JavaScript's `\|`, `&`, `<<`, `>>` on non-negative integers, and how they act on disjoint bytes |
| `Hex` | hex.dfy | `parseInt(s, 16)`, `toString(16)`, `padStart` |
| `ChartColor` | chart_color.dfy | `adjustColor` as written, and with its channels kept in place |
| `Chart` | chart.dfy | `renderChart` |
| `BinderView` | binder_view.dfy | header toggle, category filter, back button |
| `Strings` | strings.dfy | split and join at a separator; the dialog URL parser uses them |
| `ModalForms` | modal_forms.dfy | dialog action URLs, their parser, and select options |
| `ServiceWorker` | service_worker.dfy | install, activate and fetch |

Inputs the browser or the network would supply become parameters:

- the parsed amounts;
- the JSON document the chart reads;
- the data attributes of a clicked button;
- the network's answer to each request;
- the worker's origin.

Every action URL gets a partner. `ModalForms.Route` parses a URL back into
the endpoint it addresses. The dialogs are proved to produce URLs that route
back to their endpoint whenever the interpolated names contain no `/`.

Where the fetch handler's code is narrower or looser than a plain summary of it, the model follows the code:

- the API test looks for `/api/` anywhere in the URL, query string included, not only in its path;
- only a status of exactly 200 with type `basic` is stored, not every successful status;
- the same-origin test is a string prefix test, so origin `https://a.example` also admits `https://a.example.org/…`.

## Model

| member | source | states |
|---|---|---|
| ChartColor.DefaultColorValid | static/js/chart.js:34 | the fallback grey `#6c757d` is a valid six-digit colour, so the border helper accepts it |
| ChartColor.Value | static/js/chart.js:99-104 | the number parsed from the digits after an optional `#` is below 2^24 |
| ChartColor.Clamp | static/js/chart.js:107 | `Math.max(Math.min(255, v), 0)` is `v` inside [0,255], 0 below it and 255 above it |
| ChartColor.Channels | static/js/chart.js:106-112 | `num >> 16`, `(num >> 8) & 0xFF` and `num & 0xFF` are the high, middle and low bytes, and they recompose `num` |
| ChartColor.PackChannels | static/js/chart.js:115 | `lo \| (mid << 8) \| (hi << 16)` equals `lo + 256·mid + 65536·hi`, and extracting its channels gives back `hi`, `mid`, `lo` |
| ChartColor.AdjustColor | static/js/chart.js:96-116 | the result is six lower-case hex digits, with a `#` iff the input had one; its high byte is the clamped adjusted blue, its middle byte the clamped adjusted red, its low byte the clamped adjusted green |
| ChartColor.AdjustColorValue | static/js/chart.js:106-115 | the value of the result is 65536·clamp(b+amount) + 256·clamp(r+amount) + clamp(g+amount) |
| ChartColor.AdjustColorRgb | static/js/chart.js:115 | corrected helper: same format guarantees, and every output channel is its own input channel plus `amount`, clamped |
| ChartColor.AdjustColorRgbValue | static/js/chart.js:106-115 | the corrected helper's value is 65536·clamp(r+amount) + 256·clamp(g+amount) + clamp(b+amount) |
| ChartColor.GreyUnaffected | static/js/chart.js:115 | on an input whose three channels are equal, the helper as written and the corrected one agree |
| ChartColor.AsWrittenFromChannels | static/js/chart.js:106-115 | for any colour with channels r, g, b, the value of the result as written is 65536·clamp(b+amount) + 256·clamp(r+amount) + clamp(g+amount) |
| ChartColor.CorrectedFromChannels | static/js/chart.js:106-115 | for any colour with channels r, g, b, the corrected result's value is 65536·clamp(r+amount) + 256·clamp(g+amount) + clamp(b+amount) |
| ChartColor.GreyDarkened | static/js/chart.js:106-115 | every spelling of mid grey (value 0x808080) darkens by 20, as written, to the value 0x6c6c6c |
| ChartColor.RedDarkenedAsWritten | static/js/chart.js:106-115 | every spelling of pure red darkens by 20, as written, to the value 0x00eb00, a green |
| ChartColor.RedDarkenedCorrected | static/js/chart.js:106-115 | every spelling of pure red darkens by 20, corrected, to the value 0xeb0000 |
| ChartColor.DarkenMidGrey | static/js/chart.js:115 | `adjustColor('#808080', -20)` is `#6c6c6c` |
| ChartColor.DarkenRedPermuted | static/js/chart.js:115 | `adjustColor('#ff0000', -20)` is `#00eb00`, a green; the corrected helper gives `#eb0000` |
| Hex.Parse | static/js/chart.js:104 | a string of `k` hex digits parses to a value below 16^k |
| Hex.ToRadix16 | static/js/chart.js:115 | `toString(16)` yields at least one lower-case digit, with no leading zero unless it is the single digit `0`, and parsing it gives back the number |
| Hex.PadStart | static/js/chart.js:115 | `padStart(len, '0')` keeps the string as a suffix, pads to `len` when shorter, and pads with the filler only |
| Hex.Format6 | static/js/chart.js:115 | a value below 2^24 renders as exactly six lower-case digits that parse back to it |
| Hex.ParseInjective | static/js/chart.js:115 | two lower-case renderings of equal width and equal value are the same string |
| Bits.OrDisjoint | static/js/chart.js:115 | OR-ing a value below 2^k with another shifted left by k is their sum |
| Bits.AndMask | static/js/chart.js:109 | `x & (2^k − 1)` is `x mod 2^k` |
| Chart.ColorOf | static/js/chart.js:51 | an undeclared category gets `#6c757d`; a declared one gets its configured colour, or `#6c757d` when that is unset or empty |
| Chart.ColorOfValid | static/js/chart.js:34 | every colour handed to the border helper is a valid colour |
| Chart.Init | static/js/chart.js:32-35 | every declared category is a key, in declaration order, with sum 0 |
| Chart.Add | static/js/chart.js:38-46 | a transaction with a non-empty category and a numeric amount adds its amount under its category; an unknown category is appended as a new key first; any other transaction changes nothing |
| Chart.TotalUnreferenced | static/js/chart.js:41-44 | a category no counted transaction names has total 0 |
| Chart.FirstCounted | static/js/chart.js:38-46 | the index of the first counted transaction filed under a name, or the list's length when there is none |
| Chart.FirstCountedReferenced | static/js/chart.js:38-46 | a name has a first counted occurrence iff some counted transaction names it |
| Chart.FirstCountedSnoc | static/js/chart.js:38-46 | appending a transaction keeps every earlier first occurrence, and a name the list did not reference gets the new index |
| Chart.FirstSeen | static/js/chart.js:41-43 | the keys the fold creates on demand are distinct and never a declared category |
| Chart.FirstSeenMembers | static/js/chart.js:41-43 | they are exactly the referenced names that are not declared |
| Chart.FirstSeenOrdered | static/js/chart.js:38-43 | they are listed in the order of their first counted occurrence |
| Chart.DeclaredThenSeen | static/js/chart.js:32-46 | the declared names followed by the first-seen ones have no repeats, begin with the declared names, and are exactly the declared or referenced names |
| Chart.AddKeepsOrder | static/js/chart.js:38-46 | one step of the fold keeps the keys equal to the declared names followed by the first-seen ones |
| Chart.AddKeepsTotals | static/js/chart.js:38-46 | one step of the fold keeps every sum equal to the reference total |
| Chart.Aggregate | static/js/chart.js:28-46 | the keys are the declared categories in declaration order, then the undeclared referenced ones in order of first counted occurrence, with no repeats; so they are exactly the declared or referenced names; each key's sum equals the reference total of its counted transactions |
| Chart.Values | static/js/chart.js:50 | `Object.values` is index-aligned with `Object.keys` |
| Chart.Colors | static/js/chart.js:51 | one colour per label, the label's colour by `ColorOf`, each of them valid |
| Chart.Borders | static/js/chart.js:62 | one border per fill colour, at the same index, the fill darkened by 20 |
| Chart.BarsOf | static/js/chart.js:49-62 | labels, sums, fills and borders have the same length and are aligned on the category keys |
| Chart.RenderChart | static/js/chart.js:14-62 | no data iff the transaction list is missing or empty; otherwise labels, sums, fills and borders have equal length, and the labels are the declared categories followed by the undeclared referenced ones in order of first counted occurrence, without repeats |
| Chart.RenderedSums | static/js/chart.js:38-50 | each bar's value is the reference total of the counted transactions of its category |
| Chart.RenderedColors | static/js/chart.js:49-62 | each bar's fill is its category's colour, always a valid one, and its border is that fill darkened |
| BinderView.ClickHeader | static/js/app.js:14-34 | a click inside the button group changes nothing; any other click flips the content's `show` class and leaves the icon chevron-up iff shown; no other class changes |
| BinderView.ClickHeaderTwice | static/js/app.js:25-33 | two clicks on a consistent header restore it exactly |
| BinderView.FilterRows | static/js/app.js:64-82 | every row is shown iff it matches the filter, and its other fields are kept; the sum is the reference total of the matching rows, where a missing or unparsable amount counts 0 |
| BinderView.MatchingTotalSnoc | static/js/app.js:64-78 | appending a row adds its amount to the reference total exactly when it matches |
| BinderView.SelectCategory | static/js/app.js:40-120 | row visibility iff "all" or the ids are equal; the total is the visible rows' sum for a category, or the stored all-total for "all"; exactly one of danger and success is set, danger iff the total is negative; the back button is hidden iff "all"; the headings name the selection; nothing else changes |
| BinderView.SelectionForgetsHistory | static/js/app.js:64-111 | a selection's result does not depend on any earlier selection |
| BinderView.MatchingTotalIgnoresShown | static/js/app.js:64-78 | the filter total reads each row's category id and amount, never its current visibility |
| BinderView.AllRestoresStoredTotal | static/js/app.js:97-101 | selecting "all" shows the stored total, whatever the rows |
| BinderView.FindAll | static/js/app.js:131 | finds the first selector whose category is "all", or reports that there is none |
| BinderView.ClickBack | static/js/app.js:124-136 | the back button is the same as selecting "all" when the card has an "all" selector; otherwise it changes nothing |
| BinderView.AllSelectorsAgree | static/js/app.js:131-133 | any two "all" selectors have the same effect |
| ModalForms.UrlSegments | static/js/app.js:149 | every action URL is its path segments joined with `/` |
| ModalForms.RouteUrl | static/js/app.js:149-272 | the URL of an endpoint whose names contain no `/` parses back to that endpoint |
| ModalForms.UrlInjective | static/js/app.js:149-272 | two such endpoints with the same URL are equal |
| ModalForms.DeleteBinderDialog | static/js/app.js:141-150 | shows the binder name; the action is `/api/binder/{binder}/delete`, where a missing attribute reads `null`, and it routes back to deleting that binder |
| ModalForms.NewCategoryDialog | static/js/app.js:156-162 | the action is `/api/binder/{binder}/category`, and it routes back to creating a category in that binder |
| ModalForms.DeleteCategoryDialog | static/js/app.js:168-178 | shows the category name; the action is `/api/binder/{binder}/category/{category}/delete`, and it routes back to deleting that category of that binder |
| ModalForms.CategoriesUrl | static/js/app.js:195 | the category list is fetched from `/api/binder/{binder}/data`, which routes back to that binder's data endpoint |
| ModalForms.AddTransactionDialog | static/js/app.js:184-211 | the action is `/api/binder/{binder}/transaction`, and it routes back to adding a transaction to that binder; the select holds the placeholder then the keys, and only the placeholder is selected |
| ModalForms.LastMatch | static/js/app.js:242-249 | the index of the last key naming the current category, or none when no key names it |
| ModalForms.CategoryOptions | static/js/app.js:233-250 | the placeholder, then one enabled option per category key in order, with value and text the key; appending a selected option deselects the others, so the only key option selected is the last one naming the current category, and the placeholder stays selected iff no key names it; a failed fetch leaves just the selected placeholder |
| ModalForms.SelectedCategory | static/js/app.js:233-250 | exactly one option is selected: an option carrying the current category when some key names it, the placeholder otherwise |
| ModalForms.EditTransactionDialog | static/js/app.js:217-260 | the action is `/api/binder/{binder}/transaction/{id}/edit`, and it routes back to editing that transaction; the select is filled as `CategoryOptions` states for the current category; date and amount are copied, and a missing description becomes `''` |
| ModalForms.DeleteTransactionDialog | static/js/app.js:266-273 | the action is `/api/binder/{binder}/transaction/{id}/delete`, and it routes back to deleting that transaction |
| ServiceWorker.Resolve | static/service-worker.js:27 | a path is requested at the worker's origin; an absolute URL as it is |
| ServiceWorker.Requests | static/service-worker.js:4-16 | one request per listed asset, in order |
| ServiceWorker.Open | static/service-worker.js:23 | opening an existing cache changes nothing; opening a missing one appends an empty cache of that name |
| ServiceWorker.Match | static/service-worker.js:69 | a match is found iff some cache holds the URL, and it is the entry of the first cache, in creation order, that holds it |
| ServiceWorker.MatchFrom | static/service-worker.js:69 | searching caches in the given order finds an entry iff one of them holds the URL, and it is the first such cache's entry |
| ServiceWorker.PutAll | static/service-worker.js:27 | every listed URL maps to its answer; other entries are kept |
| ServiceWorker.OnInstall | static/service-worker.js:19-33 | the cache is opened either way; the assets are stored iff every request answered with an ok status other than 206, and otherwise nothing is stored |
| ServiceWorker.PartialAnswerFailsInstall | static/service-worker.js:26 | a partial (206) answer to any asset request fails the install, although 206 is an ok status |
| ServiceWorker.InstallStoresAssets | static/service-worker.js:22-27 | after a successful install the current cache holds every asset's answer, and every other cache is unchanged |
| ServiceWorker.Delete | static/service-worker.js:44 | the named cache is gone, every other cache is kept, and the remaining names keep their creation order |
| ServiceWorker.Remove | static/service-worker.js:44 | removing a name from the name list keeps every other name and keeps the list free of repeats; an absent name leaves the list as it is, and in a list without repeats the name's one entry is cut out with the others in their order |
| ServiceWorker.DeleteOthers | static/service-worker.js:39-48 | once every listed key other than the current name is deleted, only the current cache can remain, with its contents unchanged |
| ServiceWorker.OnActivate | static/service-worker.js:36-52 | after activation no cache other than `finance-binder-v1` remains; that cache is present iff it was before, with the same contents |
| ServiceWorker.OnlyCurrent | static/service-worker.js:39-48 | a storage holding at most the current cache is left exactly as it is |
| ServiceWorker.OnlyName | static/service-worker.js:39-48 | a storage whose only cache is the current one lists that single name |
| ServiceWorker.ActivateIdempotent | static/service-worker.js:36-52 | activating twice is the same as activating once |
| ServiceWorker.OnFetch | static/service-worker.js:55-92 | the handler passes through, without touching the cache, when the URL does not start with the origin or contains `/api/`; a hit answers with the matching entry and changes nothing; a miss answers from the network; an answer with status 200 and type `basic` is stored in the current cache, and any other answer changes nothing; a failed fetch is a failure |
| ServiceWorker.HitIgnoresNetwork | static/service-worker.js:69-73 | on a hit the outcome does not depend on the network |
| ServiceWorker.ApiNeverCached | static/service-worker.js:64-66 | an `/api/` URL passes through even if a cache holds it |
| ServiceWorker.ServedFromOnlyCache | static/service-worker.js:69-73 | with only the current cache present, a same-origin URL it holds is answered from it |
| ServiceWorker.InstalledAssetsServed | static/service-worker.js:19-73 | after a successful install and an activation, every same-origin asset is answered from the cache with the response stored at install |
| ServiceWorker.ThirdPartyAssetsPassThrough | static/service-worker.js:59-61 | the third-party assets cached at install are never answered by the handler, because their URLs do not start with the origin |

## Left out

- DOM mutation, event wiring, and Bootstrap modal events are not modelled. Each handler returns the new state of the elements it writes.
- Chart.js drawing options (static/js/chart.js:54-92), including the axis and tooltip formatting, are not modelled.
- The `new Date()` default for date inputs (static/js/app.js:3-9) is left out, because it reads the clock.
- `fetch`, promises and `.catch` logging are not modelled. Network answers and parsed JSON are parameters, and a failed category fetch is `None`.
- Each transaction dialog is modelled as opening, then receiving its one category fetch, before the next dialog opens. In the source (static/js/app.js:195-208 and 236-252) two overlapping opens can both append options to the same select, and the stale answer's selection can win, because the last selected option appended is the one kept.
- The service worker's `cache.put` is not awaited in the source (static/service-worker.js:84-86). It is modelled as taking effect within the same fetch step.
- `skipWaiting`, `clients.claim`, and the push and notification-click handlers (static/service-worker.js:95-117) are left out. They change no cache state.
- Cache API rules are not modelled beyond the status test: requests are identified by URL alone. The request method, `Vary` headers (including `addAll`'s rejection of a response carrying `Vary: *`), and the rejection of non-GET puts are left out.
- Floating point is not modelled. Amounts are whole cents, and `parseFloat`, `toFixed(2)` and float summation are not modelled. An amount cell arrives as absent, unparsable or a parsed amount. A stored total that does not parse is `None`, which behaves like NaN: not negative, so the total gets the success class.
- JavaScript's key-ordering rule is not modelled: `Object.keys` lists integer-like keys first. Key order is the given sequence of categories, with new keys appended.
- Inherited object properties are not modelled. `categoryColors[name]` (static/js/chart.js:51) and `categoriesData[category]` (static/js/chart.js:41-44) are plain objects, so an undeclared category named `toString` or `constructor` finds a function there: the colour lookup returns it, the `!categoriesData[category]` test is false, and `+=` then concatenates the amount onto the function's source text instead of starting a sum at 0. The model treats every undeclared name as absent.
- ChartColor.AdjustColor: requires a valid six-digit colour. Three-digit and malformed colours, which `parseInt` reads partly or as NaN, are left out.
- Chart.RenderChart: requires `WellFormed`, so every configured colour must be empty or a valid six-digit colour; so do `Chart.Colors`, `Chart.BarsOf`, `Chart.RenderedSums` and `Chart.RenderedColors`, and `Chart.Borders` requires valid fill colours. The server stores the colour form field without checking it, and a chart with any other configured colour is not modelled.
- ModalForms.RouteUrl: a round trip on the URL string, stated only for names without `/`; so is `ModalForms.UrlInjective`. The source does not encode names, and the browser's URL parser is not modelled. Characters the browser percent-encodes and the server decodes back, such as a space or a non-ASCII letter, leave the addressed path as it is. Some names without `/` still change the path the form posts to, and the round trip says nothing about them:
  - a name containing `\`, which the URL parser reads as `/`;
  - a name containing `?` or `#`, which ends the path early (`/api/binder/a?b/delete` posts to `/api/binder/a`);
  - a name containing `%2F`, which can decode to `/`;
  - a name equal to `.` or `..`, a dot segment the parser removes (`/api/binder/../delete` becomes `/api/delete`).
- The client's action URLs are not reconciled with the server routes. The Python server (app.py, models.py, database.py, config.py) is not part of this model.

## Findings

| source | as written | input that shows it | evidently intended | confidence | as-written member | corrected member |
|---|---|---|---|---|---|---|
| static/js/chart.js:115 | the channels are repacked as `g \| (r << 8) \| (b << 16)`, which puts blue in the high byte, red in the middle and green in the low byte, unlike the extraction at lines 106-112 | `adjustColor('#ff0000', -20)` gives `#00eb00` (a green border on a red bar) | `b \| (g << 8) \| (r << 16)`, giving `#eb0000` | high; not executed | ChartColor.AdjustColor, ChartColor.DarkenRedPermuted | ChartColor.AdjustColorRgb |

`Chart.Borders` and `Chart.RenderChart` use the corrected helper for the bar outlines. The two helpers agree on every input whose three channels are equal, by `ChartColor.GreyUnaffected`.

=== FILE: binder_view.dfy ===
/**
 * The binder card's client-side view state (static/js/app.js): the
 * collapsible header, the category filter with its running total, and the
 * "back to all categories" button. Each click handler is a function from the
 * card's state before the click to its state after it.
 *
 * Amounts are whole cents: the `parseFloat` of an amount cell, and of the
 * stored `data-all-total`, arrive already parsed. A stored total that does not
 * parse is `None` (JavaScript's NaN).
 */
module BinderView {
  import opened Wrappers

  // ---------------------------------------------------------------- header toggle

  const Show: string := "show"
  const ChevronUp: string := "fa-chevron-up"
  const ChevronDown: string := "fa-chevron-down"

  /** The class lists of a card's `.binder-content` and of its `.toggle-icon i`. */
  datatype Header = Header(content: set<string>, icon: set<string>)

  predicate Shown(h: Header)
  {
    Show in h.content
  }

  /** The icon agrees with the content: chevron-up exactly when shown, chevron-down exactly when hidden. */
  predicate IconMatches(h: Header)
  {
    (ChevronUp in h.icon <==> Shown(h)) && (ChevronDown in h.icon <==> !Shown(h))
  }

  /** `classList.toggle(name)`. */
  function Toggle(classes: set<string>, name: string): set<string>
  {
    if name in classes then classes - {name} else classes + {name}
  }

  /** The header's click handler; `inButtonGroup` is `event.target.closest('.btn-group')` being non-null. */
  function ClickHeader(h: Header, inButtonGroup: bool): (h': Header)
    ensures inButtonGroup ==> h' == h
    ensures !inButtonGroup ==> (Shown(h') <==> !Shown(h))
    ensures !inButtonGroup ==> IconMatches(h')
    ensures h'.content - {Show} == h.content - {Show}
    ensures h'.icon - {ChevronUp, ChevronDown} == h.icon - {ChevronUp, ChevronDown}
  {
    if inButtonGroup then h
    else
      var content := Toggle(h.content, Show);
      if Show in content then Header(content, h.icon - {ChevronDown} + {ChevronUp})
      else Header(content, h.icon - {ChevronUp} + {ChevronDown})
  }

  /** Two clicks on a header whose icon matches its content restore it exactly. */
  lemma ClickHeaderTwice(h: Header)
    requires IconMatches(h)
    ensures ClickHeader(ClickHeader(h, false), false) == h
  {
    var h2 := ClickHeader(ClickHeader(h, false), false);
    assert h2.content == h.content;
    assert h2.icon == h.icon;
  }

  // ---------------------------------------------------------------- category filter

  const AllCategories: string := "all"
  const Danger: string := "text-danger"
  const Success: string := "text-success"
  const Hidden: string := "d-none"
  const AllCategoriesTitle: string := "Tutte le categorie"

  /** A `.category-selector`: its `data-category` and `data-category-id` attributes and its trimmed text. */
  datatype Selector = Selector(category: Option<string>, categoryId: Option<string>, text: string)

  /** The fourth cell of a row: absent, present but not a number, or a parsed amount. */
  datatype AmountCell = NoCell | Unparsable | Amount(value: int)

  /** A `tr.transaction-row`: its `data-category-id`, its amount cell, and whether it is displayed. */
  datatype Row = Row(categoryId: Option<string>, cell: AmountCell, shown: bool)

  /**
   * The parts of a `.binder-card` the filter reads or writes: the category
   * selectors, the table rows, the stored `data-all-total`, the displayed
   * total and its classes, the back button's classes and the two headings.
   */
  datatype Card = Card(
    selectors: seq<Selector>,
    rows: seq<Row>,
    allTotal: Option<int>,
    total: Option<int>,
    totalClasses: set<string>,
    backClasses: set<string>,
    categoryName: string,
    totalName: string)

  predicate IsAll(sel: Selector)
  {
    sel.category == Some(AllCategories)
  }

  /** The row-visibility test of the filter. */
  predicate Matches(sel: Selector, row: Row)
  {
    IsAll(sel) || row.categoryId == sel.categoryId
  }

  function CellValue(cell: AmountCell): int
  {
    if cell.Amount? then cell.value else 0
  }

  /** Reference definition: the amounts of the rows matching `sel`, an unparsable or missing cell counting 0. */
  function MatchingTotal(sel: Selector, rows: seq<Row>): int
  {
    if rows == [] then 0
    else (if Matches(sel, rows[0]) then CellValue(rows[0].cell) else 0) + MatchingTotal(sel, rows[1..])
  }

  /** The `rows.forEach` pass: show or hide every row, summing the parsed amounts of the shown ones. */
  function FilterRows(sel: Selector, rows: seq<Row>): (r: (seq<Row>, int))
    ensures |r.0| == |rows|
    ensures forall i :: 0 <= i < |rows| ==> r.0[i] == rows[i].(shown := Matches(sel, rows[i]))
    ensures r.1 == MatchingTotal(sel, rows)
  {
    if rows == [] then ([], 0)
    else
      var row := rows[|rows| - 1];
      var (front, sum) := FilterRows(sel, rows[..|rows| - 1]);
      var visible := Matches(sel, row);
      var amount := if visible && row.cell.Amount? then row.cell.value else 0;
      MatchingTotalSnoc(sel, rows);
      (front + [row.(shown := visible)], sum + amount)
  }

  lemma {:induction false} MatchingTotalSnoc(sel: Selector, rows: seq<Row>)
    requires rows != []
    ensures var last := rows[|rows| - 1];
            MatchingTotal(sel, rows)
            == MatchingTotal(sel, rows[..|rows| - 1]) + (if Matches(sel, last) then CellValue(last.cell) else 0)
  {
    if |rows| > 1 {
      assert rows[1..][..|rows[1..]| - 1] == rows[..|rows| - 1][1..];
      MatchingTotalSnoc(sel, rows[1..]);
    }
  }

  /** The total element's classes after the colour update: exactly one of danger and success. */
  function StyleTotal(classes: set<string>, total: Option<int>): set<string>
  {
    if total.Some? && total.value < 0 then classes + {Danger} - {Success}
    else classes + {Success} - {Danger}
  }

  /** A category selector's click handler. */
  function SelectCategory(card: Card, sel: Selector): (c: Card)
    ensures c.selectors == card.selectors && c.allTotal == card.allTotal
    ensures |c.rows| == |card.rows|
    ensures forall i :: 0 <= i < |card.rows| ==>
              c.rows[i].categoryId == card.rows[i].categoryId && c.rows[i].cell == card.rows[i].cell
    ensures forall i :: 0 <= i < |card.rows| ==> (c.rows[i].shown <==> IsAll(sel) || card.rows[i].categoryId == sel.categoryId)
    ensures !IsAll(sel) ==> c.total == Some(MatchingTotal(sel, card.rows))
    ensures IsAll(sel) ==> c.total == card.allTotal
    ensures (Danger in c.totalClasses) != (Success in c.totalClasses)
    ensures Danger in c.totalClasses <==> c.total.Some? && c.total.value < 0
    ensures c.totalClasses - {Danger, Success} == card.totalClasses - {Danger, Success}
    ensures Hidden !in c.backClasses <==> !IsAll(sel)
    ensures c.backClasses - {Hidden} == card.backClasses - {Hidden}
    ensures IsAll(sel) ==> c.categoryName == c.totalName == AllCategoriesTitle
    ensures !IsAll(sel) ==> c.categoryName == sel.text && c.totalName == "categoria " + sel.text
  {
    var (rows, sum) := FilterRows(sel, card.rows);
    if !IsAll(sel) then
      card.(rows := rows,
            total := Some(sum),
            totalClasses := StyleTotal(card.totalClasses, Some(sum)),
            backClasses := card.backClasses - {Hidden},
            categoryName := sel.text,
            totalName := "categoria " + sel.text)
    else
      card.(rows := rows,
            total := card.allTotal,
            totalClasses := StyleTotal(card.totalClasses, card.allTotal),
            backClasses := card.backClasses + {Hidden},
            categoryName := AllCategoriesTitle,
            totalName := AllCategoriesTitle)
  }

  /** The card after a selection depends only on that selection: nothing of an earlier filter survives. */
  lemma SelectionForgetsHistory(card: Card, first: Selector, second: Selector)
    ensures SelectCategory(SelectCategory(card, first), second) == SelectCategory(card, second)
  {
    var mid := SelectCategory(card, first);
    var once, twice := SelectCategory(card, second), SelectCategory(mid, second);
    assert once.rows == twice.rows;
    MatchingTotalIgnoresShown(second, card.rows, mid.rows);
    assert once.totalClasses == twice.totalClasses;
    assert once.backClasses == twice.backClasses;
  }

  /** The total reads only each row's category id and amount cell, never its current visibility. */
  lemma {:induction false} MatchingTotalIgnoresShown(sel: Selector, a: seq<Row>, b: seq<Row>)
    requires |a| == |b|
    requires forall i :: 0 <= i < |a| ==> a[i].categoryId == b[i].categoryId && a[i].cell == b[i].cell
    ensures MatchingTotal(sel, a) == MatchingTotal(sel, b)
  {
    if a != [] {
      MatchingTotalIgnoresShown(sel, a[1..], b[1..]);
    }
  }

  /** Choosing "all" always shows the stored total, whatever rows the card holds or was showing. */
  lemma AllRestoresStoredTotal(card: Card, other: Card, sel: Selector)
    requires IsAll(sel) && card.allTotal == other.allTotal
    ensures SelectCategory(card, sel).total == SelectCategory(other, sel).total == card.allTotal
  {
  }

  /** The first `.category-selector[data-category="all"]` of the card, if any. */
  function FindAll(selectors: seq<Selector>): (r: Option<nat>)
    ensures r.Some? ==> r.value < |selectors| && IsAll(selectors[r.value])
    ensures r.Some? ==> forall j :: 0 <= j < r.value ==> !IsAll(selectors[j])
    ensures r.None? ==> forall j :: 0 <= j < |selectors| ==> !IsAll(selectors[j])
  {
    if selectors == [] then None
    else if IsAll(selectors[0]) then Some(0)
    else
      match FindAll(selectors[1..])
      case None => None
      case Some(k) => Some(k + 1)
  }

  /** The back button's click handler: click the card's "all" selector, if it has one. */
  function ClickBack(card: Card): (c: Card)
    ensures (exists j :: 0 <= j < |card.selectors| && IsAll(card.selectors[j])) ==>
              c == SelectCategory(card, Selector(Some(AllCategories), None, ""))
    ensures (forall j :: 0 <= j < |card.selectors| ==> !IsAll(card.selectors[j])) ==> c == card
  {
    match FindAll(card.selectors)
    case None => card
    case Some(k) =>
      AllSelectorsAgree(card, card.selectors[k], Selector(Some(AllCategories), None, ""));
      SelectCategory(card, card.selectors[k])
  }

  /** Any two "all" selectors have the same effect: their id and text are never read. */
  lemma AllSelectorsAgree(card: Card, a: Selector, b: Selector)
    requires IsAll(a) && IsAll(b)
    ensures SelectCategory(card, a) == SelectCategory(card, b)
  {
    var ra, rb := SelectCategory(card, a), SelectCategory(card, b);
    assert ra.rows == rb.rows;
  }
}

=== FILE: bits.dfy ===
/**
 * JavaScript's bitwise operators on the non-negative integers the colour code
 * handles. All operands stay below 2^24, so the 32-bit coercion the operators
 * perform never changes a value and `>>` never meets a sign bit.
 */
module Bits {

  function Pow2(k: nat): (p: nat)
    ensures p >= 1
  {
    if k == 0 then 1 else 2 * Pow2(k - 1)
  }

  /** `x | y`, bit by bit from the least significant end. */
  function BitOr(x: nat, y: nat): nat
  {
    if x == 0 && y == 0 then 0
    else 2 * BitOr(x / 2, y / 2) + (if x % 2 == 1 || y % 2 == 1 then 1 else 0)
  }

  /** `x & y`, bit by bit from the least significant end. */
  function BitAnd(x: nat, y: nat): nat
  {
    if x == 0 || y == 0 then 0
    else 2 * BitAnd(x / 2, y / 2) + (if x % 2 == 1 && y % 2 == 1 then 1 else 0)
  }

  /** `x << k` on a value whose result stays below 2^31. */
  function ShiftLeft(x: nat, k: nat): nat
  {
    x * Pow2(k)
  }

  /** `x >> k` on a non-negative 32-bit value: the sign bit is clear, so it is a floor division. */
  function ShiftRight(x: nat, k: nat): nat
  {
    var p := Pow2(k);
    DivNonNegative(x, p);
    x / p
  }

  lemma DivNonNegative(x: nat, d: int)
    requires d >= 1
    ensures x / d >= 0
  {
  }

  /** Quotient and remainder are the unique pair that reassembles `x`. */
  lemma DivModUnique(x: int, d: int, a: int, r: int)
    requires d > 0 && 0 <= r < d && x == d * a + r
    ensures x % d == r && x / d == a
  {
    var a', r' := x / d, x % d;
    assert x == d * a' + r';
    assert d * (a - a') == d * a - d * a';
    if a > a' {
      MulAtLeast(d, a - a');
    } else if a < a' {
      MulAtLeast(d, a' - a);
    }
  }

  lemma MulAtLeast(d: int, n: int)
    requires d > 0 && n >= 1
    ensures d * n >= d
  {
    assert d * n == d * (n - 1) + d;
  }

  lemma {:induction false} OrZero(y: nat)
    ensures BitOr(0, y) == y
  {
    if y != 0 {
      OrZero(y / 2);
    }
  }

  /** OR-ing a value into bits that are all zero is addition. */
  lemma {:induction false} OrDisjoint(x: nat, y: nat, k: nat)
    requires x < Pow2(k)
    ensures BitOr(x, ShiftLeft(y, k)) == x + y * Pow2(k)
  {
    if k == 0 {
      OrZero(y * Pow2(k));
    } else {
      var p := Pow2(k - 1);
      assert y * Pow2(k) == 2 * (y * p);
      if x == 0 && y * Pow2(k) == 0 {
      } else {
        OrDisjoint(x / 2, y, k - 1);
      }
    }
  }

  /** Masking with 2^k - 1 keeps the low `k` bits. */
  lemma {:induction false} AndMask(x: nat, k: nat)
    ensures BitAnd(x, Pow2(k) - 1) == x % Pow2(k)
  {
    if k == 0 {
    } else if x == 0 {
    } else {
      var p := Pow2(k - 1);
      AndMask(x / 2, k - 1);
      assert (Pow2(k) - 1) / 2 == p - 1;
      assert (Pow2(k) - 1) % 2 == 1;
      HalveMod(x, p);
    }
  }

  lemma HalveMod(x: nat, p: nat)
    requires p >= 1
    ensures x % (2 * p) == 2 * ((x / 2) % p) + x % 2
  {
    var q, r := x / 2, x % 2;
    var a, b := q / p, q % p;
    assert x == 2 * q + r;
    assert q == p * a + b;
    assert x == (2 * p) * a + (2 * b + r);
    DivModUnique(x, 2 * p, a, 2 * b + r);
  }

  lemma Pow2Values()
    ensures Pow2(8) == 0x100 && Pow2(16) == 0x1_0000 && Pow2(24) == 0x100_0000
  {
    assert Pow2(4) == 16;
    assert Pow2(8) == 256;
    assert Pow2(16) == Pow2(8) * Pow2(8) by { Pow2Add(8, 8); }
    assert Pow2(24) == Pow2(16) * Pow2(8) by { Pow2Add(16, 8); }
  }

  lemma {:induction false} Pow2Add(j: nat, k: nat)
    ensures Pow2(j + k) == Pow2(j) * Pow2(k)
  {
    if j > 0 {
      Pow2Add(j - 1, k);
    }
  }
}

=== FILE: chart.dfy ===
/**
 * Bar-chart data for one binder (`renderChart` in static/js/chart.js): fold
 * the transactions into one running sum per category, then build the
 * index-aligned labels, sums, fill colours and border colours handed to the
 * charting library.
 *
 * JavaScript object key order is modelled as given: the declared categories in
 * the order of the `categories` object, then every new category in the order
 * a transaction first introduces it.
 */
module Chart {
  import opened Wrappers
  import opened Seqs
  import ChartColor

  /** One entry of the `categories` object: its key and its optional `color` field. */
  datatype Category = Category(name: string, color: Option<string>)

  /**
   * A transaction as the chart reads it. `category` is missing when the field
   * is absent; `amount` is `None` when `typeof amount !== 'number'`.
   */
  datatype Transaction = Transaction(category: Option<string>, amount: Option<int>)

  /** The JSON document fetched for a binder; either field may be missing. */
  datatype BinderData = BinderData(transactions: Option<seq<Transaction>>, categories: Option<seq<Category>>)

  /** The running sums: keys in insertion order, and the value under each key. */
  datatype Sums = Sums(labels: seq<string>, sums: map<string, int>)

  /** What the renderer produces: the "no data" placeholder, or the bar data set. */
  datatype Chart =
    | NoData
    | Bars(labels: seq<string>, data: seq<int>, background: seq<string>, border: seq<string>)

  function Names(cats: seq<Category>): (names: seq<string>)
    ensures |names| == |cats|
    ensures forall i :: 0 <= i < |cats| ==> names[i] == cats[i].name
  {
    if cats == [] then [] else [cats[0].name] + Names(cats[1..])
  }

  /** A `categories` object: distinct keys, and every non-empty colour a six-digit hex colour. */
  predicate WellFormed(cats: seq<Category>)
  {
    && Distinct(Names(cats))
    && forall i :: 0 <= i < |cats| ==> cats[i].color.Some? && cats[i].color.value != "" ==> ChartColor.ValidColor(cats[i].color.value)
  }

  /** A transaction the fold adds in: truthy `category` and a numeric `amount`. */
  predicate Counted(t: Transaction)
  {
    t.category.Some? && t.category.value != "" && t.amount.Some?
  }

  /** Reference definition: the total amount of the counted transactions filed under `name`. */
  function Total(ts: seq<Transaction>, name: string): int
  {
    if ts == [] then 0
    else
      var t := ts[|ts| - 1];
      Total(ts[..|ts| - 1], name) + (if Counted(t) && t.category.value == name then t.amount.value else 0)
  }

  /** The categories some counted transaction names. */
  function Referenced(ts: seq<Transaction>): set<string>
  {
    set i | 0 <= i < |ts| && Counted(ts[i]) :: ts[i].category.value
  }

  /** `categories[category].color || '#6c757d'`. */
  function ConfiguredColor(c: Category): string
  {
    if c.color.Some? && c.color.value != "" then c.color.value else ChartColor.DefaultColor
  }

  /** `categoryColors[name] || '#6c757d'`: the declared category's colour, grey for an undeclared name. */
  function ColorOf(cats: seq<Category>, name: string): (color: string)
    requires Distinct(Names(cats))
    ensures name !in Names(cats) ==> color == ChartColor.DefaultColor
    ensures forall i :: 0 <= i < |cats| && cats[i].name == name ==> color == ConfiguredColor(cats[i])
  {
    if cats == [] then ChartColor.DefaultColor
    else
      assert Names(cats)[0] == cats[0].name;
      if cats[0].name == name then
        assert forall i :: 0 < i < |cats| ==> Names(cats)[i] != Names(cats)[0];
        ConfiguredColor(cats[0])
      else
        assert forall i :: 0 < i < |cats| ==> cats[i] == cats[1..][i - 1];
        ColorOf(cats[1..], name)
  }

  lemma ColorOfValid(cats: seq<Category>, name: string)
    requires WellFormed(cats)
    ensures ChartColor.ValidColor(ColorOf(cats, name))
  {
    ChartColor.DefaultColorValid();
    if name in Names(cats) {
      var i :| 0 <= i < |cats| && Names(cats)[i] == name;
    }
  }

  /** The seeding loop: a zero under every declared category, in declaration order. */
  function Init(cats: seq<Category>): (acc: Sums)
    requires Distinct(Names(cats))
    ensures acc.labels == Names(cats)
    ensures forall l :: l in acc.sums <==> l in acc.labels
    ensures forall l :: l in acc.sums ==> acc.sums[l] == 0
  {
    Sums(Names(cats), map l | l in Names(cats) :: 0)
  }

  /** One step of the summing loop; a missing key is created (appended) with 0 first. */
  function Add(acc: Sums, t: Transaction): (acc': Sums)
    ensures acc'.labels == acc.labels + (if Counted(t) && t.category.value !in acc.sums then [t.category.value] else [])
    ensures forall l :: l in acc'.sums <==> l in acc.sums || (Counted(t) && l == t.category.value)
    ensures forall l :: l in acc'.sums ==>
              acc'.sums[l] == (if l in acc.sums then acc.sums[l] else 0)
                              + (if Counted(t) && t.category.value == l then t.amount.value else 0)
  {
    if !Counted(t) then acc
    else
      var c := t.category.value;
      var labels := if c in acc.sums then acc.labels else acc.labels + [c];
      var sums := if c !in acc.sums || acc.sums[c] == 0 then acc.sums[c := 0] else acc.sums;
      Sums(labels, sums[c := sums[c] + t.amount.value])
  }

  lemma ReferencedSnoc(ts: seq<Transaction>)
    requires ts != []
    ensures var t := ts[|ts| - 1];
            Referenced(ts) == Referenced(ts[..|ts| - 1]) + (if Counted(t) then {t.category.value} else {})
  {
    var t, front := ts[|ts| - 1], ts[..|ts| - 1];
    forall l | l in Referenced(ts)
      ensures l in Referenced(front) + (if Counted(t) then {t.category.value} else {})
    {
      var i :| 0 <= i < |ts| && Counted(ts[i]) && ts[i].category.value == l;
      if i < |front| {
        assert front[i] == ts[i];
      }
    }
    forall l | l in Referenced(front)
      ensures l in Referenced(ts)
    {
      var i :| 0 <= i < |front| && Counted(front[i]) && front[i].category.value == l;
      assert ts[i] == front[i];
    }
  }

  /** A category no counted transaction names totals zero. */
  lemma {:induction false} TotalUnreferenced(ts: seq<Transaction>, name: string)
    requires name !in Referenced(ts)
    ensures Total(ts, name) == 0
  {
    if ts != [] {
      ReferencedSnoc(ts);
      TotalUnreferenced(ts[..|ts| - 1], name);
    }
  }

  /**
   * Reference definition: the index of the first counted transaction filed
   * under `name`, or `|ts|` when there is none.
   */
  function FirstCounted(ts: seq<Transaction>, name: string): (r: nat)
    ensures r <= |ts|
    ensures r < |ts| ==> Counted(ts[r]) && ts[r].category.value == name
    ensures forall i :: 0 <= i < r ==> !(Counted(ts[i]) && ts[i].category.value == name)
  {
    if ts == [] then 0
    else if Counted(ts[0]) && ts[0].category.value == name then 0
    else
      var r := 1 + FirstCounted(ts[1..], name);
      assert forall i :: 0 < i < |ts| ==> ts[i] == ts[1..][i - 1];
      r
  }

  /** The first counted occurrence exists exactly for the referenced names. */
  lemma FirstCountedReferenced(ts: seq<Transaction>, name: string)
    ensures FirstCounted(ts, name) < |ts| <==> name in Referenced(ts)
  {
    var r := FirstCounted(ts, name);
    if name in Referenced(ts) {
      var i :| 0 <= i < |ts| && Counted(ts[i]) && ts[i].category.value == name;
      assert !(i < r);
    }
  }

  /** Appending a transaction keeps every earlier first occurrence, and sets a new name's at the end. */
  lemma FirstCountedSnoc(ts: seq<Transaction>, name: string)
    requires ts != []
    ensures var front := ts[..|ts| - 1];
            name in Referenced(front) ==> FirstCounted(ts, name) == FirstCounted(front, name) < |front|
    ensures var front, t := ts[..|ts| - 1], ts[|ts| - 1];
            name !in Referenced(front) && Counted(t) && t.category.value == name ==> FirstCounted(ts, name) == |front|
  {
    var front := ts[..|ts| - 1];
    var r, r' := FirstCounted(ts, name), FirstCounted(front, name);
    FirstCountedReferenced(front, name);
    if name in Referenced(front) {
      assert front[r'] == ts[r'];
    }
  }

  /**
   * Reference definition of the categories the fold creates on demand: each
   * counted, undeclared name, taken once, where it first occurs.
   */
  function FirstSeen(cats: seq<Category>, ts: seq<Transaction>): (r: seq<string>)
    ensures Distinct(r)
    ensures forall l :: l in r ==> l !in Names(cats)
  {
    if ts == [] then []
    else
      var front, t := ts[..|ts| - 1], ts[|ts| - 1];
      var prev := FirstSeen(cats, front);
      if Counted(t) && t.category.value !in Names(cats) && t.category.value !in prev then prev + [t.category.value]
      else prev
  }

  /** The first-seen names are exactly the referenced names that are not declared. */
  lemma {:induction false} FirstSeenMembers(cats: seq<Category>, ts: seq<Transaction>)
    ensures forall l :: l in FirstSeen(cats, ts) <==> l in Referenced(ts) && l !in Names(cats)
  {
    if ts != [] {
      FirstSeenMembers(cats, ts[..|ts| - 1]);
      ReferencedSnoc(ts);
    }
  }

  /** `names` are listed in the order of their first counted occurrence in `ts`. */
  predicate InFirstOrder(ts: seq<Transaction>, names: seq<string>)
  {
    forall i, j :: 0 <= i < j < |names| ==> FirstCounted(ts, names[i]) < FirstCounted(ts, names[j])
  }

  /** The first-seen names come in the order of their first counted occurrence. */
  lemma {:induction false} FirstSeenOrdered(cats: seq<Category>, ts: seq<Transaction>)
    ensures InFirstOrder(ts, FirstSeen(cats, ts))
  {
    if ts != [] {
      var front, t := ts[..|ts| - 1], ts[|ts| - 1];
      var prev, r := FirstSeen(cats, front), FirstSeen(cats, ts);
      FirstSeenOrdered(cats, front);
      FirstSeenMembers(cats, front);
      forall i, j | 0 <= i < j < |r|
        ensures FirstCounted(ts, r[i]) < FirstCounted(ts, r[j])
      {
        FirstCountedSnoc(ts, r[i]);
        FirstCountedSnoc(ts, r[j]);
        assert r[i] == prev[i] && prev[i] in prev;
        assert FirstCounted(ts, r[i]) == FirstCounted(front, prev[i]) < |front|;
        if j < |prev| {
          assert r[j] == prev[j] && prev[j] in prev;
          assert FirstCounted(front, prev[i]) < FirstCounted(front, prev[j]);
        } else {
          var c := t.category.value;
          assert Counted(t) && c !in Names(cats) && c !in prev && r == prev + [c];
          assert r[j] == c && c !in Referenced(front);
        }
      }
    }
  }

  /** The declared names followed by the first-seen ones: distinct, and exactly the declared or referenced names. */
  lemma DeclaredThenSeen(cats: seq<Category>, ts: seq<Transaction>)
    requires Distinct(Names(cats))
    ensures var labels := Names(cats) + FirstSeen(cats, ts);
            && Distinct(labels)
            && |cats| <= |labels| && labels[..|cats|] == Names(cats)
            && forall l :: l in labels <==> l in Names(cats) || l in Referenced(ts)
  {
    var names, seen := Names(cats), FirstSeen(cats, ts);
    var labels := names + seen;
    FirstSeenMembers(cats, ts);
    forall i, j | 0 <= i < j < |labels|
      ensures labels[i] != labels[j]
    {
      if j >= |names| && i < |names| {
        assert labels[i] in names && labels[j] in seen;
      }
    }
    assert labels[..|cats|] == names;
  }

  /** One unfolding of `FirstSeen`: the last transaction adds its name when it is counted and new. */
  lemma FirstSeenSnoc(cats: seq<Category>, ts: seq<Transaction>)
    requires ts != []
    ensures var front, t := ts[..|ts| - 1], ts[|ts| - 1];
            FirstSeen(cats, ts) == FirstSeen(cats, front) + (if Counted(t) && t.category.value !in Names(cats) + FirstSeen(cats, front) then [t.category.value] else [])
  {
  }

  /** One step of the fold keeps the keys in declared-then-first-seen order. */
  lemma AddKeepsOrder(cats: seq<Category>, prev: Sums, ts: seq<Transaction>)
    requires ts != []
    requires prev.labels == Names(cats) + FirstSeen(cats, ts[..|ts| - 1])
    requires forall l :: l in prev.sums <==> l in prev.labels
    ensures Add(prev, ts[|ts| - 1]).labels == Names(cats) + FirstSeen(cats, ts)
  {
    var front, t := ts[..|ts| - 1], ts[|ts| - 1];
    var names, seen := Names(cats), FirstSeen(cats, front);
    FirstSeenSnoc(cats, ts);
    var tail := if Counted(t) && t.category.value !in names + seen then [t.category.value] else [];
    AppendAssoc(names, seen, tail);
    assert Counted(t) ==> (t.category.value in prev.sums <==> t.category.value in names + seen);
  }

  /** One step of the fold keeps every running sum equal to the reference total. */
  lemma AddKeepsTotals(prev: Sums, ts: seq<Transaction>)
    requires ts != []
    requires forall l :: l in prev.sums ==> prev.sums[l] == Total(ts[..|ts| - 1], l)
    requires forall l :: l !in prev.sums ==> l !in Referenced(ts[..|ts| - 1])
    ensures var acc := Add(prev, ts[|ts| - 1]);
            forall l :: l in acc.sums ==> acc.sums[l] == Total(ts, l)
  {
    var front, t := ts[..|ts| - 1], ts[|ts| - 1];
    var acc := Add(prev, t);
    forall l | l in acc.sums
      ensures acc.sums[l] == Total(ts, l)
    {
      if l !in prev.sums {
        TotalUnreferenced(front, l);
      }
    }
  }

  /** The whole `forEach` over the transactions, as a fold from the left. */
  function Aggregate(cats: seq<Category>, ts: seq<Transaction>): (acc: Sums)
    requires Distinct(Names(cats))
    ensures Distinct(acc.labels)
    ensures acc.labels == Names(cats) + FirstSeen(cats, ts)
    ensures |cats| <= |acc.labels| && acc.labels[..|cats|] == Names(cats)
    ensures forall l :: l in acc.labels <==> l in Names(cats) || l in Referenced(ts)
    ensures forall l :: l in acc.sums <==> l in acc.labels
    ensures forall l :: l in acc.sums ==> acc.sums[l] == Total(ts, l)
  {
    if ts == [] then
      assert Names(cats) + FirstSeen(cats, ts) == Names(cats);
      Init(cats)
    else
      var front := ts[..|ts| - 1];
      var prev := Aggregate(cats, front);
      var t := ts[|ts| - 1];
      ReferencedSnoc(ts);
      AddKeepsOrder(cats, prev, ts);
      DeclaredThenSeen(cats, ts);
      AddKeepsTotals(prev, ts);
      Add(prev, t)
  }

  function Transactions(data: BinderData): seq<Transaction>
  {
    data.transactions.GetOr([])
  }

  function Categories(data: BinderData): seq<Category>
  {
    data.categories.GetOr([])
  }

  /** `chartLabels.map(category => categoryColors[category] || '#6c757d')`. */
  function Colors(cats: seq<Category>, labels: seq<string>): (colors: seq<string>)
    requires WellFormed(cats)
    ensures |colors| == |labels|
    ensures forall i :: 0 <= i < |labels| ==> colors[i] == ColorOf(cats, labels[i])
    ensures forall i :: 0 <= i < |labels| ==> ChartColor.ValidColor(colors[i])
  {
    forall name { ColorOfValid(cats, name); }
    seq(|labels|, i requires 0 <= i < |labels| => ColorOf(cats, labels[i]))
  }

  /** `Object.values(categoriesData)`, aligned with the keys. */
  function Values(acc: Sums): (values: seq<int>)
    requires forall l :: l in acc.labels ==> l in acc.sums
    ensures |values| == |acc.labels|
    ensures forall i :: 0 <= i < |acc.labels| ==> values[i] == acc.sums[acc.labels[i]]
  {
    seq(|acc.labels|, i requires 0 <= i < |acc.labels| => acc.sums[acc.labels[i]])
  }

  /**
   * A bar's outline, `adjustColor(color, -20)`: its fill darkened by 20 per
   * channel. This uses the helper with its channels kept in place; the helper
   * as written swaps them (see `ChartColor.DarkenRedPermuted`), which differs
   * only on fills whose three channels are not all equal.
   */
  function Outline(color: string): string
    requires ChartColor.ValidColor(color)
  {
    ChartColor.AdjustColorRgb(color, -20)
  }

  /**
   * The border list, `chartColors.map(color => adjustColor(color, -20))`, with
   * each outline computed by `Outline`, that is by the corrected
   * `ChartColor.AdjustColorRgb` rather than the channel-swapping helper.
   */
  function Borders(colors: seq<string>): (r: seq<string>)
    requires forall i :: 0 <= i < |colors| ==> ChartColor.ValidColor(colors[i])
    ensures |r| == |colors|
    ensures forall i :: 0 <= i < |colors| ==> r[i] == Outline(colors[i])
  {
    seq(|colors|, i requires 0 <= i < |colors| && ChartColor.ValidColor(colors[i]) => Outline(colors[i]))
  }

  /** `renderChart(canvas, binderData)`, less the drawing. */
  function RenderChart(data: BinderData): (chart: Chart)
    requires WellFormed(Categories(data))
    ensures chart.NoData? <==> Transactions(data) == []
    ensures chart.Bars? ==> |chart.data| == |chart.labels| && |chart.background| == |chart.labels| && |chart.border| == |chart.labels|
    ensures chart.Bars? ==> Distinct(chart.labels)
    ensures chart.Bars? ==> chart.labels == Names(Categories(data)) + FirstSeen(Categories(data), Transactions(data))
    ensures chart.Bars? ==> |Categories(data)| <= |chart.labels| && chart.labels[..|Categories(data)|] == Names(Categories(data))
    ensures chart.Bars? ==> forall l :: l in chart.labels <==> l in Names(Categories(data)) || l in Referenced(Transactions(data))
  {
    var cats, ts := Categories(data), Transactions(data);
    if ts == [] then NoData
    else BarsOf(cats, Aggregate(cats, ts))
  }

  /** Each bar's value is the reference total of its category. */
  lemma RenderedSums(data: BinderData)
    requires WellFormed(Categories(data))
    ensures var chart := RenderChart(data);
            chart.Bars? ==> forall i :: 0 <= i < |chart.labels| ==> chart.data[i] == Total(Transactions(data), chart.labels[i])
  {
    var cats, ts := Categories(data), Transactions(data);
    if ts != [] {
      var acc := Aggregate(cats, ts);
      var chart := BarsOf(cats, acc);
      assert RenderChart(data) == chart;
      forall i | 0 <= i < |chart.labels|
        ensures chart.data[i] == Total(ts, chart.labels[i])
      {
        assert chart.labels[i] in acc.labels;
      }
    }
  }

  /** Each bar is filled with its category's colour, always a valid one, and outlined with that fill darkened. */
  lemma RenderedColors(data: BinderData)
    requires WellFormed(Categories(data))
    ensures var chart := RenderChart(data);
            chart.Bars? ==>
              && (forall i :: 0 <= i < |chart.labels| ==> chart.background[i] == ColorOf(Categories(data), chart.labels[i]))
              && (forall i :: 0 <= i < |chart.labels| ==> ChartColor.ValidColor(chart.background[i]))
              && (forall i :: 0 <= i < |chart.labels| ==> chart.border[i] == Outline(chart.background[i]))
  {
    var cats, ts := Categories(data), Transactions(data);
    if ts != [] {
      var acc := Aggregate(cats, ts);
      assert RenderChart(data) == BarsOf(cats, acc);
    }
  }

  /** The bar data set of the summed categories: the keys, their sums, and the colours of each key. */
  function BarsOf(cats: seq<Category>, acc: Sums): (chart: Chart)
    requires WellFormed(cats)
    requires forall l :: l in acc.labels ==> l in acc.sums
    ensures chart.Bars? && chart.labels == acc.labels
    ensures |chart.data| == |chart.labels| && |chart.background| == |chart.labels| && |chart.border| == |chart.labels|
    ensures forall i :: 0 <= i < |chart.labels| ==> chart.data[i] == acc.sums[chart.labels[i]]
    ensures forall i :: 0 <= i < |chart.labels| ==> chart.background[i] == ColorOf(cats, chart.labels[i])
    ensures forall i :: 0 <= i < |chart.labels| ==> ChartColor.ValidColor(chart.background[i])
    ensures forall i :: 0 <= i < |chart.labels| ==> chart.border[i] == Outline(chart.background[i])
  {
    var colors := Colors(cats, acc.labels);
    Bars(acc.labels, Values(acc), colors, Borders(colors))
  }
}

=== FILE: chart_color.dfy ===
/**
 * The chart's colour helper (`adjustColor` in static/js/chart.js): shift every
 * channel of a `#rrggbb` colour by a fixed amount, clamped to a byte, and
 * render the result as six lower-case hex digits.
 *
 * The helper extracts red from the high byte, green from the middle and blue
 * from the low byte, but repacks as `g | (r << 8) | (b << 16)`: blue lands in
 * the high byte, red in the middle, green in the low byte. `AdjustColor`
 * keeps that order; `AdjustColorRgb` is the standard packing.
 */
module ChartColor {
  import Bits
  import Hex

  type Channel = x: int | 0 <= x < 256

  /** Bootstrap's secondary grey, used when a category has no colour. */
  const DefaultColor: string := "#6c757d"

  lemma DefaultColorValid()
    ensures ValidColor(DefaultColor)
  {
    assert Digits(DefaultColor) == "6c757d";
  }

  predicate HasPound(color: string)
  {
    |color| > 0 && color[0] == '#'
  }

  /** The text handed to `parseInt`: the colour without its leading `#`, if any. */
  function Digits(color: string): string
  {
    if HasPound(color) then color[1..] else color
  }

  /** Six hex digits, with or without a leading `#`. */
  predicate ValidColor(color: string)
  {
    |Digits(color)| == 6 && Hex.IsHexString(Digits(color))
  }

  /** The 24-bit number a valid colour denotes. */
  function Value(color: string): (v: nat)
    requires ValidColor(color)
    ensures v < 0x100_0000
  {
    assert Hex.Pow16(6) == 0x100_0000;
    Hex.Parse(Digits(color))
  }

  /** `num >> 16`. */
  function Red(v: nat): (c: Channel)
    requires v < 0x100_0000
  {
    Bits.Pow2Values();
    Bits.ShiftRight(v, 16)
  }

  /** `(num >> 8) & 0x00FF`. */
  function Green(v: nat): (c: Channel)
    requires v < 0x100_0000
  {
    Bits.Pow2Values();
    Bits.AndMask(Bits.ShiftRight(v, 8), 8);
    Bits.BitAnd(Bits.ShiftRight(v, 8), 0x00FF)
  }

  /** `num & 0x0000FF`. */
  function Blue(v: nat): (c: Channel)
    requires v < 0x100_0000
  {
    Bits.Pow2Values();
    Bits.AndMask(v, 8);
    Bits.BitAnd(v, 0x0000FF)
  }

  /** `Math.max(Math.min(255, v), 0)`: the channel value nearest to `v`. */
  function Clamp(v: int): (c: Channel)
    ensures 0 <= v <= 255 ==> c == v
    ensures v < 0 ==> c == 0
    ensures v > 255 ==> c == 255
  {
    var m := if 255 < v then 255 else v;
    if m > 0 then m else 0
  }

  /** The repacking expression of the source, `lo | (mid << 8) | (hi << 16)`. */
  function Pack(lo: Channel, mid: Channel, hi: Channel): nat
  {
    Bits.BitOr(Bits.BitOr(lo, Bits.ShiftLeft(mid, 8)), Bits.ShiftLeft(hi, 16))
  }

  /** Packing places `hi` in the high byte, `mid` in the middle byte and `lo` in the low byte. */
  lemma PackChannels(lo: Channel, mid: Channel, hi: Channel)
    ensures Pack(lo, mid, hi) == lo + 0x100 * mid + 0x1_0000 * hi
    ensures Pack(lo, mid, hi) < 0x100_0000
    ensures Red(Pack(lo, mid, hi)) == hi
    ensures Green(Pack(lo, mid, hi)) == mid
    ensures Blue(Pack(lo, mid, hi)) == lo
  {
    Bits.Pow2Values();
    Bits.OrDisjoint(lo, mid, 8);
    var low2 := lo + mid * 0x100;
    Bits.OrDisjoint(low2, hi, 16);
    var v := low2 + hi * 0x1_0000;
    assert Pack(lo, mid, hi) == v;
    Bits.DivModUnique(v, 0x1_0000, hi, low2);
    Bits.DivModUnique(v, 0x100, mid + 0x100 * hi, lo);
    Bits.DivModUnique(mid + 0x100 * hi, 0x100, hi, mid);
    Bits.AndMask(v / 0x100, 8);
    Bits.AndMask(v, 8);
  }

  /** The source's `adjustColor(color, amount)`, channel order as written. */
  function AdjustColor(color: string, amount: int): (out: string)
    requires ValidColor(color)
    ensures ValidColor(out)
    ensures HasPound(out) <==> HasPound(color)
    ensures |Digits(out)| == 6 && Hex.IsLowerHexString(Digits(out))
    ensures Red(Value(out)) == Clamp(Blue(Value(color)) + amount)
    ensures Green(Value(out)) == Clamp(Red(Value(color)) + amount)
    ensures Blue(Value(out)) == Clamp(Green(Value(color)) + amount)
  {
    var num := Value(color);
    var r := Clamp(Red(num) + amount);
    var g := Clamp(Green(num) + amount);
    var b := Clamp(Blue(num) + amount);
    PackChannels(g, r, b);
    var hex := Hex.Format6(Pack(g, r, b));
    if HasPound(color) then "#" + hex else hex
  }

  /** `adjustColor` with the standard packing `b | (g << 8) | (r << 16)`: every channel stays in place. */
  function AdjustColorRgb(color: string, amount: int): (out: string)
    requires ValidColor(color)
    ensures ValidColor(out)
    ensures HasPound(out) <==> HasPound(color)
    ensures |Digits(out)| == 6 && Hex.IsLowerHexString(Digits(out))
    ensures Red(Value(out)) == Clamp(Red(Value(color)) + amount)
    ensures Green(Value(out)) == Clamp(Green(Value(color)) + amount)
    ensures Blue(Value(out)) == Clamp(Blue(Value(color)) + amount)
  {
    var num := Value(color);
    var r := Clamp(Red(num) + amount);
    var g := Clamp(Green(num) + amount);
    var b := Clamp(Blue(num) + amount);
    PackChannels(b, g, r);
    var hex := Hex.Format6(Pack(b, g, r));
    if HasPound(color) then "#" + hex else hex
  }

  /** On a grey input (all three channels equal) the swap is invisible: both packings agree. */
  lemma GreyUnaffected(color: string, amount: int)
    requires ValidColor(color)
    requires Red(Value(color)) == Green(Value(color)) == Blue(Value(color))
    ensures AdjustColor(color, amount) == AdjustColorRgb(color, amount)
  {
    AdjustColorValue(color, amount);
    AdjustColorRgbValue(color, amount);
    SameRendering(AdjustColor(color, amount), AdjustColorRgb(color, amount));
  }

  /** Two lower-case renderings with the same value and the same prefix are the same string. */
  lemma SameRendering(a: string, b: string)
    requires ValidColor(a) && ValidColor(b) && (HasPound(a) <==> HasPound(b))
    requires Hex.IsLowerHexString(Digits(a)) && Hex.IsLowerHexString(Digits(b))
    requires Value(a) == Value(b)
    ensures a == b
  {
    Hex.ParseInjective(Digits(a), Digits(b));
    if HasPound(a) {
      assert a == [a[0]] + Digits(a);
      assert b == [b[0]] + Digits(b);
    }
  }

  /** The three channel extractions split a 24-bit value into its bytes. */
  lemma Channels(v: nat)
    requires v < 0x100_0000
    ensures Red(v) == v / 0x1_0000
    ensures Green(v) == (v / 0x100) % 0x100
    ensures Blue(v) == v % 0x100
    ensures v == 0x1_0000 * Red(v) + 0x100 * Green(v) + Blue(v)
  {
    Bits.Pow2Values();
    Bits.AndMask(v / 0x100, 8);
    Bits.AndMask(v, 8);
    var hi, mid, lo := v / 0x1_0000, (v / 0x100) % 0x100, v % 0x100;
    assert v == 0x100 * (v / 0x100) + lo;
    assert v / 0x100 == 0x100 * ((v / 0x100) / 0x100) + mid;
    Bits.DivModUnique(v, 0x1_0000, (v / 0x100) / 0x100, 0x100 * mid + lo);
  }

  /** The repacked value of `AdjustColor`: adjusted blue high, adjusted red middle, adjusted green low. */
  lemma AdjustColorValue(color: string, amount: int)
    requires ValidColor(color)
    ensures Value(AdjustColor(color, amount))
            == 0x1_0000 * Clamp(Blue(Value(color)) + amount)
               + 0x100 * Clamp(Red(Value(color)) + amount)
               + Clamp(Green(Value(color)) + amount)
  {
    Channels(Value(AdjustColor(color, amount)));
  }

  /** The packed value of `AdjustColorRgb`: every adjusted channel in its own byte. */
  lemma AdjustColorRgbValue(color: string, amount: int)
    requires ValidColor(color)
    ensures Value(AdjustColorRgb(color, amount))
            == 0x1_0000 * Clamp(Red(Value(color)) + amount)
               + 0x100 * Clamp(Green(Value(color)) + amount)
               + Clamp(Blue(Value(color)) + amount)
  {
    Channels(Value(AdjustColorRgb(color, amount)));
  }

  /** A `#`-prefixed lower-case result is pinned down by the value of its digits. */
  lemma ResultFromValue(out: string, hex: string)
    requires ValidColor(out) && HasPound(out) && Hex.IsLowerHexString(Digits(out))
    requires |hex| == 6 && Hex.IsLowerHexString(hex) && Hex.IsHexString(hex)
    requires Value(out) == Hex.Parse(hex)
    ensures out == "#" + hex
  {
    Hex.ParseInjective(Digits(out), hex);
    assert out == [out[0]] + out[1..];
  }

  // The worked examples below evaluate literal colours. Each literal is read
  // in a lemma of its own so that no single proof unfolds the whole helper.

  lemma MidGreyInput()
    ensures ValidColor("#808080") && HasPound("#808080") && Value("#808080") == 0x808080
  {
    Hex.ParseSix("808080");
  }

  lemma PureRedInput()
    ensures ValidColor("#ff0000") && HasPound("#ff0000") && Value("#ff0000") == 0xff0000
  {
    Hex.ParseSix("ff0000");
  }

  /** The value of a colour given by its three channels determines those channels. */
  lemma ChannelsOf(color: string, r: Channel, g: Channel, b: Channel)
    requires ValidColor(color) && Value(color) == 0x1_0000 * r + 0x100 * g + b
    ensures Red(Value(color)) == r && Green(Value(color)) == g && Blue(Value(color)) == b
  {
    PackChannels(b, g, r);
  }

  /** `AdjustColor` on a colour with channels `r`, `g`, `b`: adjusted blue high, red middle, green low. */
  lemma AsWrittenFromChannels(color: string, amount: int, r: Channel, g: Channel, b: Channel)
    requires ValidColor(color) && Value(color) == 0x1_0000 * r + 0x100 * g + b
    ensures Value(AdjustColor(color, amount)) == 0x1_0000 * Clamp(b + amount) + 0x100 * Clamp(r + amount) + Clamp(g + amount)
  {
    ChannelsOf(color, r, g, b);
    AdjustColorValue(color, amount);
  }

  /** `AdjustColorRgb` on a colour with channels `r`, `g`, `b`: every adjusted channel in its own byte. */
  lemma CorrectedFromChannels(color: string, amount: int, r: Channel, g: Channel, b: Channel)
    requires ValidColor(color) && Value(color) == 0x1_0000 * r + 0x100 * g + b
    ensures Value(AdjustColorRgb(color, amount)) == 0x1_0000 * Clamp(r + amount) + 0x100 * Clamp(g + amount) + Clamp(b + amount)
  {
    ChannelsOf(color, r, g, b);
    AdjustColorRgbValue(color, amount);
  }

  /** Any spelling of mid grey darkens, as written, to the value 0x6c6c6c. */
  lemma GreyDarkened(color: string)
    requires ValidColor(color) && Value(color) == 0x808080
    ensures Value(AdjustColor(color, -20)) == 0x6c6c6c
  {
    AsWrittenFromChannels(color, -20, 0x80, 0x80, 0x80);
  }

  /** Any spelling of pure red darkens, as written, to the value 0x00eb00: a green. */
  lemma RedDarkenedAsWritten(color: string)
    requires ValidColor(color) && Value(color) == 0xff0000
    ensures Value(AdjustColor(color, -20)) == 0x00eb00
  {
    AsWrittenFromChannels(color, -20, 0xff, 0, 0);
  }

  /** Any spelling of pure red darkens, corrected, to the value 0xeb0000. */
  lemma RedDarkenedCorrected(color: string)
    requires ValidColor(color) && Value(color) == 0xff0000
    ensures Value(AdjustColorRgb(color, -20)) == 0xeb0000
  {
    CorrectedFromChannels(color, -20, 0xff, 0, 0);
  }

  /** Darkening mid grey by 20: 0x80 - 20 = 0x6c in every channel, so the swap does not show. */
  lemma DarkenMidGrey()
    ensures AdjustColor("#808080", -20) == "#6c6c6c"
  {
    MidGreyInput();
    GreyDarkened("#808080");
    RendersDarkGrey(AdjustColor("#808080", -20));
  }

  /** Darkening pure red by 20: the source yields a green, the standard packing a darker red. */
  lemma DarkenRedPermuted()
    ensures AdjustColor("#ff0000", -20) == "#00eb00"
    ensures AdjustColorRgb("#ff0000", -20) == "#eb0000"
  {
    DarkenRedAsWritten();
    DarkenRedCorrected();
  }

  lemma DarkenRedAsWritten()
    ensures AdjustColor("#ff0000", -20) == "#00eb00"
  {
    PureRedInput();
    RedDarkenedAsWritten("#ff0000");
    RendersDarkGreen(AdjustColor("#ff0000", -20));
  }

  lemma DarkenRedCorrected()
    ensures AdjustColorRgb("#ff0000", -20) == "#eb0000"
  {
    PureRedInput();
    RedDarkenedCorrected("#ff0000");
    RendersDarkRed(AdjustColorRgb("#ff0000", -20));
  }

  lemma RendersDarkGrey(out: string)
    requires ValidColor(out) && HasPound(out) && Hex.IsLowerHexString(Digits(out))
    requires Value(out) == 0x6c6c6c
    ensures out == "#6c6c6c"
  {
    Hex.ParseSix("6c6c6c");
    ResultFromValue(out, "6c6c6c");
  }

  lemma RendersDarkGreen(out: string)
    requires ValidColor(out) && HasPound(out) && Hex.IsLowerHexString(Digits(out))
    requires Value(out) == 0x00eb00
    ensures out == "#00eb00"
  {
    Hex.ParseSix("00eb00");
    ResultFromValue(out, "00eb00");
  }

  lemma RendersDarkRed(out: string)
    requires ValidColor(out) && HasPound(out) && Hex.IsLowerHexString(Digits(out))
    requires Value(out) == 0xeb0000
    ensures out == "#eb0000"
  {
    Hex.ParseSix("eb0000");
    ResultFromValue(out, "eb0000");
  }
}

=== FILE: hex.dfy ===
/**
 * Base-16 text: `parseInt(s, 16)` on well-formed digit strings,
 * `Number.prototype.toString(16)` on non-negative integers, and
 * `String.prototype.padStart`.
 */
module Hex {
  import Bits

  predicate IsHexDigit(c: char)
  {
    '0' <= c <= '9' || 'a' <= c <= 'f' || 'A' <= c <= 'F'
  }

  predicate IsLowerHexDigit(c: char)
  {
    '0' <= c <= '9' || 'a' <= c <= 'f'
  }

  predicate IsHexString(s: string)
  {
    forall i :: 0 <= i < |s| ==> IsHexDigit(s[i])
  }

  /** What `toString(16)` produces: digits and lower-case letters only. */
  predicate IsLowerHexString(s: string)
  {
    forall i :: 0 <= i < |s| ==> IsLowerHexDigit(s[i])
  }

  function Pow16(k: nat): (p: nat)
    ensures p >= 1
  {
    if k == 0 then 1 else 16 * Pow16(k - 1)
  }

  function DigitValue(c: char): (v: nat)
    requires IsHexDigit(c)
    ensures v < 16
  {
    if '0' <= c <= '9' then c as int - '0' as int
    else if 'a' <= c <= 'f' then c as int - 'a' as int + 10
    else c as int - 'A' as int + 10
  }

  function LowerDigit(v: nat): (c: char)
    requires v < 16
    ensures IsLowerHexDigit(c) && IsHexDigit(c) && DigitValue(c) == v
  {
    if v < 10 then ('0' as int + v) as char else ('a' as int + v - 10) as char
  }

  /** `parseInt(s, 16)` on a string of hex digits (upper or lower case), most significant first. */
  function Parse(s: string): (n: nat)
    requires IsHexString(s)
    ensures n < Pow16(|s|)
  {
    if s == [] then 0 else 16 * Parse(s[..|s| - 1]) + DigitValue(s[|s| - 1])
  }

  /** `n.toString(16)` for a non-negative integer: the shortest lower-case digit string. */
  function ToRadix16(n: nat): (s: string)
    ensures 1 <= |s| && IsLowerHexString(s) && IsHexString(s)
    ensures |s| == 1 || s[0] != '0'
    ensures Parse(s) == n
  {
    if n < 16 then [LowerDigit(n)]
    else
      var s := ToRadix16(n / 16) + [LowerDigit(n % 16)];
      assert s[..|s| - 1] == ToRadix16(n / 16);
      s
  }

  /** `s.padStart(len, fill)` with a one-character filler. */
  function PadStart(s: string, len: nat, fill: char): (r: string)
    ensures |r| == if |s| < len then len else |s|
    ensures r[|r| - |s|..] == s
    ensures forall i :: 0 <= i < |r| - |s| ==> r[i] == fill
  {
    if |s| < len then seq(len - |s|, _ => fill) + s else s
  }

  /** The shortest rendering of a value below 16^k fits in `k` digits. */
  lemma {:induction false} RadixLength(n: nat, k: nat)
    requires 1 <= k && n < Pow16(k)
    ensures |ToRadix16(n)| <= k
  {
    if n >= 16 {
      RadixLength(n / 16, k - 1);
    }
  }

  /** Leading zeros do not change the parsed value. */
  lemma {:induction false} ParseLeadingZeros(z: string, s: string)
    requires forall i :: 0 <= i < |z| ==> z[i] == '0'
    requires IsHexString(s)
    ensures IsHexString(z + s) && Parse(z + s) == Parse(s)
  {
    if s == [] {
      assert z + s == z;
      ParseZeros(z);
    } else {
      var s' := s[..|s| - 1];
      assert (z + s)[..|z + s| - 1] == z + s';
      ParseLeadingZeros(z, s');
    }
  }

  lemma {:induction false} ParseZeros(z: string)
    requires forall i :: 0 <= i < |z| ==> z[i] == '0'
    ensures IsHexString(z) && Parse(z) == 0
  {
    if z != [] {
      ParseZeros(z[..|z| - 1]);
    }
  }

  /** `n.toString(16).padStart(6, '0')` for a 24-bit value: six lower-case digits that parse back to `n`. */
  function Format6(n: nat): (s: string)
    requires n < 0x100_0000
    ensures |s| == 6 && IsLowerHexString(s) && IsHexString(s)
    ensures Parse(s) == n
  {
    var digits := ToRadix16(n);
    assert Pow16(6) == 0x100_0000;
    RadixLength(n, 6);
    var s := PadStart(digits, 6, '0');
    assert s == s[..|s| - |digits|] + digits;
    ParseLeadingZeros(s[..|s| - |digits|], digits);
    s
  }

  /** Lower-case renderings of one width are determined by their value. */
  lemma {:induction false} ParseInjective(s: string, t: string)
    requires |s| == |t| && IsLowerHexString(s) && IsLowerHexString(t)
    requires Parse(s) == Parse(t)
    ensures s == t
  {
    if s != [] {
      var s', t' := s[..|s| - 1], t[..|t| - 1];
      Bits.DivModUnique(Parse(s), 16, Parse(s'), DigitValue(s[|s| - 1]));
      Bits.DivModUnique(Parse(t), 16, Parse(t'), DigitValue(t[|t| - 1]));
      ParseInjective(s', t');
      assert s == s' + [s[|s| - 1]] && t == t' + [t[|t| - 1]];
    }
  }

  /** A six-digit string read positionally, most significant digit first. */
  lemma ParseSix(s: string)
    requires |s| == 6 && IsHexString(s)
    ensures Parse(s) == 0x10_0000 * DigitValue(s[0]) + 0x1_0000 * DigitValue(s[1]) + 0x1000 * DigitValue(s[2])
                        + 0x100 * DigitValue(s[3]) + 0x10 * DigitValue(s[4]) + DigitValue(s[5])
  {
    assert s[..1][..0] == [];
    assert Parse(s[..1]) == DigitValue(s[0]);
    assert s[..2][..1] == s[..1];
    assert Parse(s[..2]) == 16 * Parse(s[..1]) + DigitValue(s[1]);
    assert s[..3][..2] == s[..2];
    assert Parse(s[..3]) == 16 * Parse(s[..2]) + DigitValue(s[2]);
    assert s[..4][..3] == s[..3];
    assert Parse(s[..4]) == 16 * Parse(s[..3]) + DigitValue(s[3]);
    assert s[..5][..4] == s[..4];
    assert Parse(s[..5]) == 16 * Parse(s[..4]) + DigitValue(s[4]);
    assert s[..6] == s;
  }
}

=== FILE: modal_forms.dfy ===
/**
 * The dialog wiring of static/js/app.js: when a dialog opens, the data
 * attributes of the button that opened it become the form's `action` URL and,
 * for the transaction dialogs, the category `<select>`'s options and the
 * edit form's field values.
 *
 * An attribute is `None` when `getAttribute` returns null. A template literal
 * renders null as the text "null"; assigning null to `textContent` or to an
 * input's `value` gives the empty string.
 */
module ModalForms {
  import opened Wrappers
  import Strings

  /** The server endpoints the client addresses, one per URL shape it builds. */
  datatype Endpoint =
    | BinderData(binder: string)
    | DeleteBinder(binder: string)
    | NewCategory(binder: string)
    | DeleteCategory(binder: string, category: string)
    | AddTransaction(binder: string)
    | EditTransaction(binder: string, transaction: string)
    | DeleteTransaction(binder: string, transaction: string)

  /** `${value}` of a `getAttribute` result. */
  function Interpolate(a: Option<string>): string
  {
    a.GetOr("null")
  }

  /** A `getAttribute` result assigned to `textContent` or to an input's `value`. */
  function AsText(a: Option<string>): string
  {
    a.GetOr("")
  }

  /** The URL the client builds for an endpoint. */
  function Url(e: Endpoint): string
  {
    match e
    case BinderData(b) => "/api/binder/" + b + "/data"
    case DeleteBinder(b) => "/api/binder/" + b + "/delete"
    case NewCategory(b) => "/api/binder/" + b + "/category"
    case DeleteCategory(b, c) => "/api/binder/" + b + "/category/" + c + "/delete"
    case AddTransaction(b) => "/api/binder/" + b + "/transaction"
    case EditTransaction(b, t) => "/api/binder/" + b + "/transaction/" + t + "/edit"
    case DeleteTransaction(b, t) => "/api/binder/" + b + "/transaction/" + t + "/delete"
  }

  /** The URL's path segments. */
  function Segments(e: Endpoint): (parts: seq<string>)
    ensures |parts| >= 1
  {
    match e
    case BinderData(b) => ["", "api", "binder", b, "data"]
    case DeleteBinder(b) => ["", "api", "binder", b, "delete"]
    case NewCategory(b) => ["", "api", "binder", b, "category"]
    case DeleteCategory(b, c) => ["", "api", "binder", b, "category", c, "delete"]
    case AddTransaction(b) => ["", "api", "binder", b, "transaction"]
    case EditTransaction(b, t) => ["", "api", "binder", b, "transaction", t, "edit"]
    case DeleteTransaction(b, t) => ["", "api", "binder", b, "transaction", t, "delete"]
  }

  /** Every interpolated value is one path segment. */
  predicate Plain(e: Endpoint)
  {
    && Strings.Free(e.binder, '/')
    && (e.DeleteCategory? ==> Strings.Free(e.category, '/'))
    && (e.EditTransaction? || e.DeleteTransaction? ==> Strings.Free(e.transaction, '/'))
  }

  /** Partner of `Url`: which endpoint a path addresses, if any. */
  function Route(url: string): Option<Endpoint>
  {
    var p := Strings.Split(url, '/');
    if |p| < 5 || p[0] != "" || p[1] != "api" || p[2] != "binder" then None
    else if |p| == 5 && p[4] == "data" then Some(BinderData(p[3]))
    else if |p| == 5 && p[4] == "delete" then Some(DeleteBinder(p[3]))
    else if |p| == 5 && p[4] == "category" then Some(NewCategory(p[3]))
    else if |p| == 5 && p[4] == "transaction" then Some(AddTransaction(p[3]))
    else if |p| == 7 && p[4] == "category" && p[6] == "delete" then Some(DeleteCategory(p[3], p[5]))
    else if |p| == 7 && p[4] == "transaction" && p[6] == "edit" then Some(EditTransaction(p[3], p[5]))
    else if |p| == 7 && p[4] == "transaction" && p[6] == "delete" then Some(DeleteTransaction(p[3], p[5]))
    else None
  }

  lemma JoinSnoc(parts: seq<string>, last: string)
    requires |parts| >= 1
    ensures Strings.Join(parts + [last], '/') == Strings.Join(parts, '/') + "/" + last
  {
    assert (parts + [last])[..|parts|] == parts;
  }

  lemma Join5(a: string, b: string, c: string, d: string, f: string)
    ensures Strings.Join([a, b, c, d, f], '/') == a + "/" + b + "/" + c + "/" + d + "/" + f
  {
    JoinSnoc([a], b);
    assert [a] + [b] == [a, b];
    JoinSnoc([a, b], c);
    assert [a, b] + [c] == [a, b, c];
    JoinSnoc([a, b, c], d);
    assert [a, b, c] + [d] == [a, b, c, d];
    JoinSnoc([a, b, c, d], f);
    assert [a, b, c, d] + [f] == [a, b, c, d, f];
  }

  lemma Join7(a: string, b: string, c: string, d: string, f: string, g: string, h: string)
    ensures Strings.Join([a, b, c, d, f, g, h], '/')
            == a + "/" + b + "/" + c + "/" + d + "/" + f + "/" + g + "/" + h
  {
    Join5(a, b, c, d, f);
    JoinSnoc([a, b, c, d, f], g);
    assert [a, b, c, d, f] + [g] == [a, b, c, d, f, g];
    JoinSnoc([a, b, c, d, f, g], h);
    assert [a, b, c, d, f, g] + [h] == [a, b, c, d, f, g, h];
  }

  lemma UrlSegments(e: Endpoint)
    ensures Url(e) == Strings.Join(Segments(e), '/')
  {
    match e
    case BinderData(b) =>
      UrlShort(b, "data");
      assert "/" + "data" == "/data";
    case DeleteBinder(b) =>
      UrlShort(b, "delete");
      assert "/" + "delete" == "/delete";
    case NewCategory(b) =>
      UrlShort(b, "category");
      assert "/" + "category" == "/category";
    case AddTransaction(b) =>
      UrlShort(b, "transaction");
      assert "/" + "transaction" == "/transaction";
    case DeleteCategory(b, c) =>
      UrlLong(b, "category", c, "delete");
      assert "/" + "category" + "/" == "/category/" && "/" + "delete" == "/delete";
    case EditTransaction(b, t) =>
      UrlLong(b, "transaction", t, "edit");
      assert "/" + "transaction" + "/" == "/transaction/" && "/" + "edit" == "/edit";
    case DeleteTransaction(b, t) =>
      UrlLong(b, "transaction", t, "delete");
      assert "/" + "transaction" + "/" == "/transaction/" && "/" + "delete" == "/delete";
  }

  lemma UrlShort(b: string, x: string)
    ensures Strings.Join(["", "api", "binder", b, x], '/') == "/api/binder/" + b + ("/" + x)
  {
    Join5("", "api", "binder", b, x);
  }

  lemma UrlLong(b: string, x: string, y: string, z: string)
    ensures Strings.Join(["", "api", "binder", b, x, y, z], '/') == "/api/binder/" + b + ("/" + x + "/") + y + ("/" + z)
  {
    Join7("", "api", "binder", b, x, y, z);
  }

  /** The URL of a plain endpoint routes back to it, so different plain endpoints have different URLs. */
  lemma RouteUrl(e: Endpoint)
    requires Plain(e)
    ensures Route(Url(e)) == Some(e)
  {
    UrlSegments(e);
    Strings.SplitJoin(Segments(e), '/');
  }

  lemma UrlInjective(e1: Endpoint, e2: Endpoint)
    requires Plain(e1) && Plain(e2) && Url(e1) == Url(e2)
    ensures e1 == e2
  {
    RouteUrl(e1);
    RouteUrl(e2);
  }

  // ---------------------------------------------------------------- dialogs

  /** The data attributes of the button that opened a dialog. */
  datatype Trigger = Trigger(
    binder: Option<string>,
    category: Option<string>,
    transaction: Option<string>,
    date: Option<string>,
    description: Option<string>,
    amount: Option<string>)

  /** An `<option>` of the category select. */
  datatype SelectOption = SelectOption(value: string, text: string, disabled: bool, selected: bool)

  /** The disabled "choose a category" option every select starts from. */
  const Placeholder: SelectOption := SelectOption("", "Seleziona una categoria", true, true)

  /** A confirmation dialog: the name it shows and its form's action. */
  datatype Confirm = Confirm(shown: string, action: string)

  /** The add-transaction dialog: its form's action and the select's options. */
  datatype AddForm = AddForm(action: string, options: seq<SelectOption>)

  /** The edit-transaction dialog: action, options and the pre-filled fields. */
  datatype EditForm = EditForm(action: string, options: seq<SelectOption>, date: string, description: string, amount: string)

  /**
   * The last key naming `current`, if any. Appending an option marked
   * `selected` to a single-choice `<select>` runs the HTML standard's
   * selectedness setting algorithm, which deselects every other option, so
   * the option selected at the end is the last one appended as selected.
   */
  function LastMatch(keys: seq<string>, current: Option<string>): (k: Option<nat>)
    ensures k.Some? ==> k.value < |keys| && current == Some(keys[k.value])
    ensures k.Some? ==> forall j :: k.value < j < |keys| ==> current != Some(keys[j])
    ensures k.None? ==> forall j :: 0 <= j < |keys| ==> current != Some(keys[j])
  {
    if keys == [] then None
    else if current == Some(keys[|keys| - 1]) then Some(|keys| - 1)
    else LastMatch(keys[..|keys| - 1], current)
  }

  /**
   * The select after the category fetch: the placeholder, then one option per
   * key of `categories` in order. The option of the last key naming `current`
   * ends up selected; the placeholder stays selected only when no key names
   * it. A failed fetch (`None`) leaves the placeholder alone.
   */
  function CategoryOptions(fetched: Option<seq<string>>, current: Option<string>): (opts: seq<SelectOption>)
    ensures |opts| >= 1 && opts[0] == Placeholder.(selected := opts[0].selected)
    ensures fetched.None? ==> opts == [Placeholder]
    ensures fetched.Some? ==> (opts[0].selected <==> LastMatch(fetched.value, current).None?)
    ensures fetched.Some? ==> |opts| == 1 + |fetched.value|
    ensures fetched.Some? ==> forall j :: 1 <= j < |opts| ==>
              && opts[j].value == fetched.value[j - 1]
              && opts[j].text == fetched.value[j - 1]
              && !opts[j].disabled
              && (opts[j].selected <==> LastMatch(fetched.value, current) == Some(j - 1))
  {
    match fetched
    case None => [Placeholder]
    case Some(keys) =>
      var last := LastMatch(keys, current);
      [Placeholder.(selected := last.None?)]
        + seq(|keys|, i requires 0 <= i < |keys| => SelectOption(keys[i], keys[i], false, last == Some(i)))
  }

  /** Option `k` is the one selected option of `opts`. */
  predicate OnlySelected(opts: seq<SelectOption>, k: nat)
  {
    k < |opts| && opts[k].selected && forall j :: 0 <= j < |opts| && j != k ==> !opts[j].selected
  }

  /**
   * Exactly one option of the filled select is selected: an option carrying
   * the current category when some key names it, the placeholder otherwise.
   */
  lemma SelectedCategory(keys: seq<string>, current: Option<string>)
    ensures var opts := CategoryOptions(Some(keys), current);
            exists k: nat :: OnlySelected(opts, k)
              && (current.Some? && current.value in keys ==> k >= 1 && opts[k].value == current.value)
              && (current.None? || current.value !in keys ==> k == 0)
  {
    var opts := CategoryOptions(Some(keys), current);
    var last := LastMatch(keys, current);
    if last.None? {
      assert OnlySelected(opts, 0);
    } else {
      var k := last.value + 1;
      assert keys[k - 1] == current.value;
      assert OnlySelected(opts, k);
    }
  }

  /** Delete-binder dialog. */
  function DeleteBinderDialog(t: Trigger): (d: Confirm)
    ensures d.shown == AsText(t.binder)
    ensures d.action == "/api/binder/" + Interpolate(t.binder) + "/delete"
    ensures Plain(DeleteBinder(Interpolate(t.binder))) ==> Route(d.action) == Some(DeleteBinder(Interpolate(t.binder)))
  {
    var e := DeleteBinder(Interpolate(t.binder));
    assert Plain(e) ==> Route(Url(e)) == Some(e) by { if Plain(e) { RouteUrl(e); } }
    Confirm(AsText(t.binder), Url(DeleteBinder(Interpolate(t.binder))))
  }

  /** New-category dialog: only the form's action. */
  function NewCategoryDialog(t: Trigger): (action: string)
    ensures action == "/api/binder/" + Interpolate(t.binder) + "/category"
    ensures Plain(NewCategory(Interpolate(t.binder))) ==> Route(action) == Some(NewCategory(Interpolate(t.binder)))
  {
    var e := NewCategory(Interpolate(t.binder));
    assert Plain(e) ==> Route(Url(e)) == Some(e) by { if Plain(e) { RouteUrl(e); } }
    Url(NewCategory(Interpolate(t.binder)))
  }

  /** Delete-category dialog. */
  function DeleteCategoryDialog(t: Trigger): (d: Confirm)
    ensures d.shown == AsText(t.category)
    ensures d.action == "/api/binder/" + Interpolate(t.binder) + "/category/" + Interpolate(t.category) + "/delete"
    ensures var e := DeleteCategory(Interpolate(t.binder), Interpolate(t.category));
            Plain(e) ==> Route(d.action) == Some(e)
  {
    var e := DeleteCategory(Interpolate(t.binder), Interpolate(t.category));
    assert Plain(e) ==> Route(Url(e)) == Some(e) by { if Plain(e) { RouteUrl(e); } }
    Confirm(AsText(t.category), Url(e))
  }

  /**
   * Add-transaction dialog. `fetched` is the key list of the `categories`
   * object returned by the binder's data endpoint, `None` when the fetch or
   * its JSON parse failed.
   */
  function AddTransactionDialog(t: Trigger, fetched: Option<seq<string>>): (d: AddForm)
    ensures d.action == "/api/binder/" + Interpolate(t.binder) + "/transaction"
    ensures var e := AddTransaction(Interpolate(t.binder));
            Plain(e) ==> Route(d.action) == Some(e)
    ensures d.options == CategoryOptions(fetched, None)
    ensures forall i :: 0 <= i < |d.options| ==> (d.options[i].selected <==> i == 0)
  {
    var e := AddTransaction(Interpolate(t.binder));
    assert Plain(e) ==> Route(Url(e)) == Some(e) by { if Plain(e) { RouteUrl(e); } }
    AddForm(Url(e), CategoryOptions(fetched, None))
  }

  /** The URL both transaction dialogs fetch the category list from. */
  function CategoriesUrl(t: Trigger): (url: string)
    ensures url == "/api/binder/" + Interpolate(t.binder) + "/data"
    ensures var e := BinderData(Interpolate(t.binder));
            Plain(e) ==> Route(url) == Some(e)
  {
    var e := BinderData(Interpolate(t.binder));
    assert Plain(e) ==> Route(Url(e)) == Some(e) by { if Plain(e) { RouteUrl(e); } }
    Url(e)
  }

  /** Edit-transaction dialog: the current category is pre-selected, the fields pre-filled. */
  function EditTransactionDialog(t: Trigger, fetched: Option<seq<string>>): (d: EditForm)
    ensures d.action == "/api/binder/" + Interpolate(t.binder) + "/transaction/" + Interpolate(t.transaction) + "/edit"
    ensures var e := EditTransaction(Interpolate(t.binder), Interpolate(t.transaction));
            Plain(e) ==> Route(d.action) == Some(e)
    ensures d.options == CategoryOptions(fetched, t.category)
    ensures d.date == AsText(t.date) && d.amount == AsText(t.amount)
    ensures t.description.None? ==> d.description == ""
    ensures t.description.Some? ==> d.description == t.description.value
  {
    var e := EditTransaction(Interpolate(t.binder), Interpolate(t.transaction));
    assert Plain(e) ==> Route(Url(e)) == Some(e) by { if Plain(e) { RouteUrl(e); } }
    EditForm(Url(e), CategoryOptions(fetched, t.category), AsText(t.date), t.description.GetOr(""), AsText(t.amount))
  }

  /** Delete-transaction dialog: only the form's action. */
  function DeleteTransactionDialog(t: Trigger): (action: string)
    ensures action == "/api/binder/" + Interpolate(t.binder) + "/transaction/" + Interpolate(t.transaction) + "/delete"
    ensures var e := DeleteTransaction(Interpolate(t.binder), Interpolate(t.transaction));
            Plain(e) ==> Route(action) == Some(e)
  {
    var e := DeleteTransaction(Interpolate(t.binder), Interpolate(t.transaction));
    assert Plain(e) ==> Route(Url(e)) == Some(e) by { if Plain(e) { RouteUrl(e); } }
    Url(e)
  }
}

=== FILE: seqs.dfy ===
/** Facts about sequences shared by the chart, the dialogs and the service worker. */
module Seqs {

  /** No element occurs twice: the keys of an object, the names of the caches. */
  predicate Distinct<T(==)>(s: seq<T>)
  {
    forall i, j :: 0 <= i < j < |s| ==> s[i] != s[j]
  }

  /** Concatenation regroups freely. */
  lemma AppendAssoc<T>(a: seq<T>, b: seq<T>, c: seq<T>)
    ensures a + (b + c) == (a + b) + c
  {
  }
}

=== FILE: service_worker.dfy ===
/**
 * The offline cache of static/service-worker.js: the install, activate and
 * fetch handlers as transitions over the browser's cache storage.
 *
 * Requests are identified by their URL. Network answers are inputs, and the
 * handler's un-awaited `cache.put` is applied at once, as part of the same
 * transition.
 */
module ServiceWorker {
  import opened Wrappers
  import opened Seqs

  const CacheName: string := "finance-binder-v1"

  /** The application shell and the pinned third-party assets fetched at install. */
  const Assets: seq<string> := [
    "/",
    "/login",
    "/dashboard",
    "/static/css/style.css",
    "/static/js/app.js",
    "/static/js/chart.js",
    "/static/manifest.json",
    "https://cdn.jsdelivr.net/npm/bootstrap@5.3.0-alpha1/dist/css/bootstrap.min.css",
    "https://cdn.jsdelivr.net/npm/bootstrap@5.3.0-alpha1/dist/js/bootstrap.bundle.min.js",
    "https://cdnjs.cloudflare.com/ajax/libs/font-awesome/6.0.0/css/all.min.css",
    "https://cdn.jsdelivr.net/npm/chart.js"
  ]

  /** A listed URL as the request it names: a path is resolved against the worker's origin. */
  function Resolve(origin: string, u: string): (url: string)
    ensures |u| > 0 && u[0] == '/' ==> origin <= url && url[|origin|..] == u
    ensures !(|u| > 0 && u[0] == '/') ==> url == u
  {
    if |u| > 0 && u[0] == '/' then origin + u else u
  }

  /** The requests `cache.addAll(Assets)` makes from a worker of `origin`. */
  function Requests(origin: string): (urls: seq<string>)
    ensures |urls| == |Assets|
    ensures forall i :: 0 <= i < |Assets| ==> urls[i] == Resolve(origin, Assets[i])
  {
    seq(|Assets|, i requires 0 <= i < |Assets| => Resolve(origin, Assets[i]))
  }

  /** The `type` of a Fetch-standard response. */
  datatype ResponseType = Basic | Cors | Default | Error | Opaque | OpaqueRedirect

  datatype Response = Response(status: int, kind: ResponseType, body: string)

  /** One named cache: request URL to stored response. */
  type Cache = map<string, Response>

  /**
   * `caches`: the cache names in creation order (the order of `caches.keys()`
   * and of the search made by `caches.match`) and each cache's contents.
   */
  datatype Storage = Storage(names: seq<string>, caches: map<string, Cache>)

  /** The names are distinct and are exactly the caches present. */
  predicate Valid(st: Storage)
  {
    && Distinct(st.names)
    && (forall n :: n in st.names ==> n in st.caches)
    && (forall n :: n in st.caches ==> n in st.names)
  }

  /** `caches.open(name)`: the named cache, created empty at the end of the order if missing. */
  function Open(st: Storage, name: string): (st': Storage)
    requires Valid(st)
    ensures Valid(st')
    ensures name in st'.caches
    ensures name in st.caches ==> st' == st
    ensures name !in st.caches ==> st'.names == st.names + [name] && st'.caches == st.caches[name := map[]]
  {
    if name in st.caches then st else Storage(st.names + [name], st.caches[name := map[]])
  }

  /** `caches.match(url)`: the entry of the first cache, in creation order, that holds the URL. */
  function Match(st: Storage, url: string): (r: Option<Response>)
    requires Valid(st)
    ensures r.Some? <==> exists n :: n in st.caches && url in st.caches[n]
    ensures r.Some? ==> exists n :: n in st.caches && url in st.caches[n] && st.caches[n][url] == r.value
    ensures r.Some? ==> exists i :: 0 <= i < |st.names| && url in st.caches[st.names[i]] && r.value == st.caches[st.names[i]][url]
                                    && forall j :: 0 <= j < i ==> url !in st.caches[st.names[j]]
  {
    MatchFrom(st, st.names, url)
  }

  function MatchFrom(st: Storage, order: seq<string>, url: string): (r: Option<Response>)
    requires forall i :: 0 <= i < |order| ==> order[i] in st.caches
    ensures r.Some? <==> exists i :: 0 <= i < |order| && url in st.caches[order[i]]
    ensures r.Some? ==> exists i :: 0 <= i < |order| && url in st.caches[order[i]] && r.value == st.caches[order[i]][url]
                                    && forall j :: 0 <= j < i ==> url !in st.caches[order[j]]
  {
    if order == [] then None
    else if url in st.caches[order[0]] then
      var r := Some(st.caches[order[0]][url]);
      assert url in st.caches[order[0]] && r.value == st.caches[order[0]][url];
      r
    else
      var r := MatchFrom(st, order[1..], url);
      assert forall i :: 1 <= i < |order| ==> order[1..][i - 1] == order[i];
      if r.Some? then
        var i :| 0 <= i < |order[1..]| && url in st.caches[order[1..][i]] && r.value == st.caches[order[1..][i]][url]
                 && forall j :: 0 <= j < i ==> url !in st.caches[order[1..][j]];
        assert forall j :: 0 <= j < i + 1 ==> url !in st.caches[order[j]];
        r
      else r
  }

  // ---------------------------------------------------------------- install

  /** What the network answered for one URL: a response, or a rejected fetch. */
  datatype NetworkResult = Answer(response: Response) | NetworkError

  /** `response.ok`: a status in 200–299. */
  predicate Ok(r: Response)
  {
    200 <= r.status <= 299
  }

  datatype Install = Installed(storage: Storage) | InstallFailed(storage: Storage)

  /**
   * A response `cache.addAll` accepts: ok, and not a partial (206) response,
   * which the Service Workers standard's addAll rejects as well.
   */
  predicate Addable(r: Response)
  {
    Ok(r) && r.status != 206
  }

  /** Every URL of `urls` answered with a response `addAll` accepts. */
  predicate AllOk(urls: seq<string>, net: map<string, NetworkResult>)
  {
    forall u :: u in urls ==> u in net && net[u].Answer? && Addable(net[u].response)
  }

  /** The cache after `put`ting every URL of `urls` with its answer. */
  function PutAll(c: Cache, urls: seq<string>, net: map<string, NetworkResult>): (c': Cache)
    requires AllOk(urls, net)
    ensures forall u :: u in urls ==> u in c' && c'[u] == net[u].response
    ensures forall u :: u in c' && u !in urls ==> u in c && c'[u] == c[u]
    ensures forall u :: u in c ==> u in c'
  {
    c + map u | u in urls :: net[u].response
  }

  /**
   * The install handler of a worker served from `origin`: open the cache,
   * then `cache.addAll(Assets)`, which stores nothing unless every request
   * answered with an ok, non-partial response. `net` gives the network's
   * answer for each request URL.
   */
  function OnInstall(st: Storage, origin: string, net: map<string, NetworkResult>): (r: Install)
    requires Valid(st)
    ensures Valid(r.storage)
    ensures r.Installed? <==> AllOk(Requests(origin), net)
    ensures r.InstallFailed? ==> r.storage == Open(st, CacheName)
    ensures r.Installed? ==>
              var current := Open(st, CacheName);
              r.storage == current.(caches := current.caches[CacheName := PutAll(current.caches[CacheName], Requests(origin), net)])
  {
    var current := Open(st, CacheName);
    var urls := Requests(origin);
    if AllOk(urls, net) then
      Installed(current.(caches := current.caches[CacheName := PutAll(current.caches[CacheName], urls, net)]))
    else
      InstallFailed(current)
  }

  /** A partial (206) answer to any asset request fails the install, although 206 is an ok status. */
  lemma PartialAnswerFailsInstall(st: Storage, origin: string, net: map<string, NetworkResult>, i: nat)
    requires Valid(st)
    requires i < |Assets|
    requires var u := Requests(origin)[i]; u in net && net[u].Answer? && net[u].response.status == 206
    ensures Ok(net[Requests(origin)[i]].response)
    ensures OnInstall(st, origin, net).InstallFailed?
  {
    var u := Requests(origin)[i];
    assert u in Requests(origin);
  }

  /** A successful install leaves the cache holding every asset's answer and every other cache as it was. */
  lemma InstallStoresAssets(st: Storage, origin: string, net: map<string, NetworkResult>)
    requires Valid(st)
    requires AllOk(Requests(origin), net)
    ensures var after := OnInstall(st, origin, net).storage;
            && CacheName in after.caches
            && (forall u :: u in Requests(origin) ==> u in after.caches[CacheName] && after.caches[CacheName][u] == net[u].response)
            && (forall n :: n in st.caches && n != CacheName ==> n in after.caches && after.caches[n] == st.caches[n])
  {
  }

  // ---------------------------------------------------------------- activate

  /** `caches.delete(name)`. */
  function Delete(st: Storage, name: string): (st': Storage)
    requires Valid(st)
    ensures Valid(st')
    ensures name !in st'.caches
    ensures forall n :: n in st.caches && n != name ==> n in st'.caches && st'.caches[n] == st.caches[n]
    ensures forall n :: n in st'.caches ==> n in st.caches
    ensures st'.names == Remove(st.names, name)
  {
    Storage(Remove(st.names, name), st.caches - {name})
  }

  /** The name list after a deletion: the other names, in their creation order. */
  function Remove(names: seq<string>, name: string): (r: seq<string>)
    ensures forall n :: n in r <==> n in names && n != name
    ensures Distinct(names) ==> Distinct(r)
    ensures name !in names ==> r == names
    ensures Distinct(names) ==> forall k :: 0 <= k < |names| && names[k] == name ==> r == names[..k] + names[k + 1..]
  {
    if names == [] then []
    else
      var rest := Remove(names[1..], name);
      assert names == [names[0]] + names[1..];
      if names[0] == name then
        assert Distinct(names) ==> forall k :: 0 <= k < |names| && names[k] == name ==> rest == names[..k] + names[k + 1..] by {
          if Distinct(names) {
            assert name !in names[1..];
            assert names[..0] + names[1..] == names[1..];
          }
        }
        rest
      else
        var r := [names[0]] + rest;
        assert Distinct(names) ==> Distinct(r) by {
          if Distinct(names) {
            assert Distinct(names[1..]) && names[0] !in names[1..];
          }
        }
        assert Distinct(names) ==> forall k :: 0 <= k < |names| && names[k] == name ==> r == names[..k] + names[k + 1..] by {
          if Distinct(names) {
            assert Distinct(names[1..]);
            forall k | 0 <= k < |names| && names[k] == name
              ensures r == names[..k] + names[k + 1..]
            {
              assert names[1..][k - 1] == name;
              ConsSplice(names, k);
            }
          }
        }
        r
  }

  /** Cutting entry `k` out of a list is keeping its head and cutting entry `k - 1` out of its tail. */
  lemma ConsSplice<T>(s: seq<T>, k: nat)
    requires 1 <= k < |s|
    ensures [s[0]] + (s[1..][..k - 1] + s[1..][k..]) == s[..k] + s[k + 1..]
  {
    assert s[..k] == [s[0]] + s[1..][..k - 1];
    assert s[k + 1..] == s[1..][k..];
    AppendAssoc([s[0]], s[1..][..k - 1], s[1..][k..]);
  }

  /** The activate handler: delete every cache, of those listed by `keys`, not named `CacheName`. */
  function OnActivate(st: Storage): (st': Storage)
    requires Valid(st)
    ensures Valid(st')
    ensures forall n :: n in st'.caches ==> n == CacheName
    ensures CacheName in st.caches <==> CacheName in st'.caches
    ensures CacheName in st.caches ==> st'.caches[CacheName] == st.caches[CacheName]
  {
    DeleteOthers(st, st.names)
  }

  function DeleteOthers(st: Storage, keys: seq<string>): (st': Storage)
    requires Valid(st)
    requires forall n :: n in st.caches && n != CacheName ==> n in keys
    ensures Valid(st')
    ensures forall n :: n in st'.caches ==> n == CacheName
    ensures CacheName in st.caches <==> CacheName in st'.caches
    ensures CacheName in st.caches ==> st'.caches[CacheName] == st.caches[CacheName]
    decreases |keys|
  {
    if keys == [] then st
    else if keys[0] != CacheName then DeleteOthers(Delete(st, keys[0]), keys[1..])
    else DeleteOthers(st, keys[1..])
  }

  /** A second activation finds nothing left to delete. */
  lemma ActivateIdempotent(st: Storage)
    requires Valid(st)
    ensures OnActivate(OnActivate(st)) == OnActivate(st)
  {
    var once := OnActivate(st);
    OnlyCurrent(once);
  }

  /** A storage holding at most the current cache is left as it is. */
  lemma OnlyCurrent(st: Storage)
    requires Valid(st)
    requires forall n :: n in st.caches ==> n == CacheName
    ensures OnActivate(st) == st
  {
    if CacheName in st.caches {
      OnlyName(st);
      assert DeleteOthers(st, st.names) == DeleteOthers(st, st.names[1..]);
      assert st.names[1..] == [];
    }
  }

  /** A valid storage whose only cache is the current one lists just that name. */
  lemma OnlyName(st: Storage)
    requires Valid(st)
    requires CacheName in st.caches
    requires forall n :: n in st.caches ==> n == CacheName
    ensures st.names == [CacheName]
  {
    assert CacheName in st.names;
    forall i | 0 <= i < |st.names|
      ensures st.names[i] == CacheName
    {
      assert st.names[i] in st.names;
    }
    if |st.names| > 1 {
      DistinctPair(st.names);
      assert false;
    }
  }

  lemma DistinctPair(names: seq<string>)
    requires Distinct(names) && |names| > 1
    ensures names[0] != names[1]
  {
  }

  // ---------------------------------------------------------------- fetch

  /** What the fetch handler does with a request. */
  datatype Outcome =
    | PassThrough                  // no `respondWith`: the browser fetches natively
    | FromCache(response: Response)
    | FromNetwork(response: Response)
    | Failed                       // the network fetch rejected

  datatype Fetched = Fetched(outcome: Outcome, storage: Storage)

  /** `url.includes(part)`. */
  predicate Contains(url: string, part: string)
  {
    if |url| < |part| then false else url[..|part|] == part || Contains(url[1..], part)
  }

  /** `response.status === 200 && response.type === 'basic'`: the negation of the early-return test that skips caching. */
  predicate Storable(r: Response)
  {
    r.status == 200 && r.kind == Basic
  }

  /**
   * The fetch handler for a request to `url` from a page of `origin`; `net`
   * is what the network would answer, consulted only on a cache miss.
   */
  function OnFetch(st: Storage, origin: string, url: string, net: NetworkResult): (r: Fetched)
    requires Valid(st)
    ensures Valid(r.storage)
    ensures !(origin <= url) ==> r == Fetched(PassThrough, st)
    ensures origin <= url && Contains(url, "/api/") ==> r == Fetched(PassThrough, st)
    ensures r.outcome.PassThrough? <==> !(origin <= url) || Contains(url, "/api/")
    ensures r.outcome.FromCache? <==> !r.outcome.PassThrough? && Match(st, url).Some?
    ensures r.outcome.FromCache? ==> r.outcome.response == Match(st, url).value && r.storage == st
    ensures r.outcome.FromNetwork? ==> net == Answer(r.outcome.response)
    ensures r.outcome.FromNetwork? && Storable(r.outcome.response) ==>
              var current := Open(st, CacheName);
              r.storage == current.(caches := current.caches[CacheName := current.caches[CacheName][url := r.outcome.response]])
    ensures r.outcome.FromNetwork? && !Storable(r.outcome.response) ==> r.storage == st
    ensures r.outcome.Failed? <==> !r.outcome.PassThrough? && Match(st, url).None? && net.NetworkError?
    ensures r.outcome.Failed? ==> r.storage == st
  {
    if !(origin <= url) then Fetched(PassThrough, st)
    else if Contains(url, "/api/") then Fetched(PassThrough, st)
    else
      match Match(st, url)
      case Some(cached) => Fetched(FromCache(cached), st)
      case None =>
        match net
        case NetworkError => Fetched(Failed, st)
        case Answer(response) =>
          if !Storable(response) then Fetched(FromNetwork(response), st)
          else
            var current := Open(st, CacheName);
            Fetched(FromNetwork(response), current.(caches := current.caches[CacheName := current.caches[CacheName][url := response]]))
  }

  /** A cache hit never consults the network: the outcome is the same whatever it would answer. */
  lemma HitIgnoresNetwork(st: Storage, origin: string, url: string, a: NetworkResult, b: NetworkResult)
    requires Valid(st)
    requires origin <= url && !Contains(url, "/api/") && Match(st, url).Some?
    ensures OnFetch(st, origin, url, a) == OnFetch(st, origin, url, b)
  {
  }

  /** An API URL is never answered from the cache, even when a cache holds it. */
  lemma ApiNeverCached(st: Storage, origin: string, url: string, net: NetworkResult)
    requires Valid(st)
    requires Contains(url, "/api/")
    ensures OnFetch(st, origin, url, net) == Fetched(PassThrough, st)
  {
  }

  /**
   * After a successful install and an activation, every same-origin shell
   * asset is served from the cache, whatever the network would now answer.
   */
  lemma InstalledAssetsServed(st: Storage, origin: string, net: map<string, NetworkResult>, asset: string, miss: NetworkResult)
    requires Valid(st)
    requires AllOk(Requests(origin), net)
    requires asset in Assets && |asset| > 0 && asset[0] == '/'
    requires !Contains(origin + asset, "/api/")
    ensures var url := origin + asset;
            OnFetch(OnActivate(OnInstall(st, origin, net).storage), origin, url, miss).outcome == FromCache(net[url].response)
  {
    var url := origin + asset;
    var i :| 0 <= i < |Assets| && Assets[i] == asset;
    assert Requests(origin)[i] == url;
    var installed := OnInstall(st, origin, net).storage;
    InstallStoresAssets(st, origin, net);
    var ready := OnActivate(installed);
    assert url in ready.caches[CacheName] && ready.caches[CacheName][url] == net[url].response;
    ServedFromOnlyCache(ready, origin, url, miss);
  }

  /** With the current cache the only one, a same-origin request it holds is answered from it. */
  lemma ServedFromOnlyCache(st: Storage, origin: string, url: string, miss: NetworkResult)
    requires Valid(st)
    requires CacheName in st.caches && url in st.caches[CacheName]
    requires forall n :: n in st.caches ==> n == CacheName
    requires origin <= url && !Contains(url, "/api/")
    ensures OnFetch(st, origin, url, miss).outcome == FromCache(st.caches[CacheName][url])
  {
    assert Match(st, url) == Some(st.caches[CacheName][url]);
  }

  /**
   * The third-party assets are cached at install but, being cross-origin,
   * their requests are never answered by the fetch handler.
   */
  lemma ThirdPartyAssetsPassThrough(st: Storage, origin: string, asset: string, net: NetworkResult)
    requires Valid(st)
    requires asset in Assets && !(|asset| > 0 && asset[0] == '/')
    requires !(origin <= asset)
    ensures OnFetch(st, origin, Resolve(origin, asset), net) == Fetched(PassThrough, st)
  {
  }
}

=== FILE: strings.dfy ===
/** Splitting a string at a separator character, and joining parts with one. */
module Strings {

  predicate Free(s: string, sep: char)
  {
    forall i :: 0 <= i < |s| ==> s[i] != sep
  }

  /** The parts with `sep` between neighbours: `parts.join(sep)`. */
  function Join(parts: seq<string>, sep: char): string
    requires |parts| >= 1
  {
    if |parts| == 1 then parts[0] else Join(parts[..|parts| - 1], sep) + [sep] + parts[|parts| - 1]
  }

  /** The maximal `sep`-free runs of `s`, in order: `s.split(sep)`. */
  function Split(s: string, sep: char): (parts: seq<string>)
    ensures |parts| >= 1
    ensures forall i :: 0 <= i < |parts| ==> Free(parts[i], sep)
  {
    if s == [] then [""]
    else
      var front := Split(s[..|s| - 1], sep);
      var c := s[|s| - 1];
      if c == sep then front + [""]
      else front[..|front| - 1] + [front[|front| - 1] + [c]]
  }

  /** A separator-free string is one part. */
  lemma {:induction false} SplitFree(s: string, sep: char)
    requires Free(s, sep)
    ensures Split(s, sep) == [s]
  {
    if s != [] {
      SplitFree(s[..|s| - 1], sep);
      assert s[..|s| - 1] + [s[|s| - 1]] == s;
    }
  }

  /** Appending a separator and a separator-free tail appends one part. */
  lemma {:induction false} SplitAppend(a: string, sep: char, b: string)
    requires Free(b, sep)
    ensures Split(a + [sep] + b, sep) == Split(a, sep) + [b]
  {
    if b == [] {
      assert (a + [sep] + b)[..|a + [sep] + b| - 1] == a;
    } else {
      var b' := b[..|b| - 1];
      SplitAppend(a, sep, b');
      assert (a + [sep] + b)[..|a + [sep] + b| - 1] == a + [sep] + b';
      assert b' + [b[|b| - 1]] == b;
    }
  }

  /** Splitting undoes joining when no part contains the separator. */
  lemma {:induction false} SplitJoin(parts: seq<string>, sep: char)
    requires |parts| >= 1
    requires forall i :: 0 <= i < |parts| ==> Free(parts[i], sep)
    ensures Split(Join(parts, sep), sep) == parts
  {
    if |parts| == 1 {
      SplitFree(parts[0], sep);
    } else {
      var front := parts[..|parts| - 1];
      SplitJoin(front, sep);
      SplitAppend(Join(front, sep), sep, parts[|parts| - 1]);
      assert front + [parts[|parts| - 1]] == parts;
    }
  }
}

=== FILE: wrappers.dfy ===
/** Optional values: a missing DOM attribute, a missing JSON field, a failed parse. */
module Wrappers {

  datatype Option<+T> = None | Some(value: T) {

    /** The wrapped value, or `default` when there is none. */
    function GetOr(default: T): T
    {
      match this
      case Some(v) => v
      case None => default
    }
  }
}
